=== FILE: README.md ===
# mcp-windbg session layer in Dafny

mcp-windbg is an MCP server that lets a client analyse Windows crash dumps through
`cdb.exe`. This project models its session layer and proves properties of the model:

- **Output framing.** `cdb` prints unframed text. After every command the session
  sends `.echo COMMAND_COMPLETED_MARKER`. The reader thread strips each line and cuts
  the stream at every line that contains the marker text. The lines read since the
  previous cut are published as the command's output, the marker line itself is
  dropped, and later lines stay buffered (module `Framing`; the pure function
  `FrameFrom` maps a whole line stream to the outputs it publishes and the lines it
  keeps).
- **One debugger session** (module `Cdb`, class `CdbSession`):
  - locating `cdb.exe`: the given path, then the default install locations on Windows
    only, first match wins;
  - the command line it is started with;
  - the constructor's checks, in their order;
  - waiting for the first marker, then running the initial commands;
  - `send_command`, with its not-running, write-failure and timeout errors;
  - `shutdown`, which always forgets the process.
- **The server's session table** (module `SessionRegistry`, class `Registry`), keyed
  by the absolute dump path: get-or-create, unload, and the clean-up at exit.
- **Tool replies** (module `ToolReplies`):
  - the dispatch on the tool name;
  - the command plan and Markdown sections of `open_windbg_dump`;
  - the `run_windbg_cmd`, `close_windbg_dump` and `list_windbg_dumps` replies;
  - the common analysis commands and their results table;
  - how `call_tool` reports a failed tool.

The operating system is abstract:

- A `Host` answers whether a path names a file and whether the platform is Windows.
- `abspath` is a given function.
- Starting the process yields a `LaunchOutcome`.
- Polling a process yields a boolean.
- Everything written to the debugger's input is appended to the session's `stdin` log.

The reader thread is the `FeedLine` method. The lines it handles while a command is
outstanding are given with the command as an `Exchange`:

- the lines handled after the ready flag is cleared and before the output is reset;
- whether the write raises;
- the lines handled after the write and before the caller stops waiting.

A wait "times out" exactly when no marker line is among those lines.

A run of commands is specified from its start. `OutcomeAt` is what the i-th command
returns or raises, sent on the buffer the commands before it left (`Drained`). `Ran`
says that the session's buffer and input log are those left by the first n commands.
`PlanProgress` says the same for the steps of `open_windbg_dump` and ties each section
of the reply to its step's outcome.

The lemmas show a consequence of this design. A command that times out may still get
its reply later, and what happens to that reply depends on when its marker arrives:

- If the marker reaches the reader before the next `send_command` clears the ready
  flag, the late lines are published as the output (cdb_session.py:141). The next
  command's clear and reset then drop them (cdb_session.py:176-179), and it waits for
  its own marker as usual.
- If the marker lands after that clear and before the reset of the output, the late
  lines are published, the ready flag is set, and the reset drops the lines. The next
  command's wait then returns at once, and the command returns no lines. If its own
  marker is also handled before the result is taken, it returns its own reply instead.
  This is the `before.outputs != []` branch of `SendOutcome`.
- If the marker arrives while the next command waits, the late lines are published at
  that marker. The command returns them in place of its own reply, unless its own
  marker is also handled before the result is taken: the command returns the last
  output published (`Last(after.outputs)` in `SendOutcome`).

`Cdb.SendReturnsReply` states that a command returns the lines already buffered
followed by its own reply. It is the command's own output only when the buffer was
empty.

## Model

| member | source | states |
|---|---|---|
| Text.RStrip | src/mcp_server_windbg/cdb_session.py:130 | the stripped line is a prefix of the line, does not end in whitespace, and everything removed is whitespace (Python's `str.isspace` set) |
| Text.ContainsAt | src/mcp_server_windbg/cdb_session.py:137 | `pat in s`, and a `re.search` for a literal pattern, holds exactly when the pattern occurs in the text at some position; a marker line (`IsMarkerLine`, cdb_session.py:13) is one holding the marker text anywhere |
| Text.NatToString | src/mcp_server_windbg/server.py:264 | the decimal text of a count is non-empty, all digits, with no leading zero |
| Text.DecimalRoundTrip | src/mcp_server_windbg/server.py:264 | reading back the decimal text of a number gives the number |
| Text.SplitJoin | src/mcp_server_windbg/server.py:189 | joining one or more newline-free lines with "\n" and splitting at "\n" gives the lines back |
| Text.SplitJoinThen | src/mcp_server_windbg/server.py:222 | splitting newline-free parts joined with "\n", then a newline and a rest, gives the parts back followed by the pieces of the rest |
| Framing.FrameClean | src/mcp_server_windbg/cdb_session.py:129-143 | no published output line and no buffered line contains the marker text, and each has had its trailing whitespace removed |
| Framing.FrameConserves | src/mcp_server_windbg/cdb_session.py:134-142 | the reader loop (`FrameFrom`) loses only the marker lines: the published outputs followed by the buffer are exactly the initial buffer followed by every non-marker line, stripped, in order; from a clean buffer that whole text is stripped and marker-free (`KeptClean`) |
| Framing.FrameCount | src/mcp_server_windbg/cdb_session.py:139-143 | exactly one output is published per marker line |
| Framing.FrameAppend | src/mcp_server_windbg/cdb_session.py:128-143 | reading two runs of lines one after the other is reading their concatenation: outputs add up and the buffer carries over |
| Framing.FrameWithoutMarker | src/mcp_server_windbg/cdb_session.py:134-137 | lines without the marker only extend the buffer and publish nothing |
| Framing.FrameReply | src/mcp_server_windbg/cdb_session.py:134-143 | a reply then a marker line publishes exactly the buffer plus the reply's stripped lines, and the lines after the marker stay buffered |
| Framing.FrameThroughMarker | src/mcp_server_windbg/cdb_session.py:134-143 | a marker-free stretch and a marker publish buffer plus stretch as one output, and reading continues from an empty buffer |
| Framing.NothingPendingAfterMarker | src/mcp_server_windbg/cdb_session.py:141-142 | right after a marker line the buffer is empty |
| Framing.OutputBetweenMarkers | src/mcp_server_windbg/cdb_session.py:134-143 | the k-th published output is exactly the stripped lines between the k-th and (k+1)-th marker lines of the stream |
| Framing.PendingSinceLastMarker | src/mcp_server_windbg/cdb_session.py:134-143 | the buffer holds exactly the stripped lines read since the last marker line |
| Cdb.FirstExisting | src/mcp_server_windbg/cdb_session.py:115-118 | the result is the first path in list order that names a file, and there is none exactly when no path names a file |
| Cdb.FindCdb | src/mcp_server_windbg/cdb_session.py:109-120 | a non-empty custom path that names a file wins; any other result is an existing default location on Windows; there is none exactly when neither applies |
| Cdb.FindCdbExecutable | src/mcp_server_windbg/cdb_session.py:109-120 | the first-match loop finds what `FindCdb` specifies |
| Cdb.LaunchArgs | src/mcp_server_windbg/cdb_session.py:68-76 | the argument vector starts `[cdb, "-z", dump]`, has `"-y", symbols` next exactly when a symbols path is non-empty, and ends with the additional arguments in order |
| Cdb.BuildArgs | src/mcp_server_windbg/cdb_session.py:68-76 | extending the list in place builds the vector `LaunchArgs` specifies |
| Cdb.EffectiveTimeout | src/mcp_server_windbg/cdb_session.py:188 | the override is used unless it is missing or zero, in which case the instance timeout is used |
| Cdb.SendTimesOutIffNoMarker | src/mcp_server_windbg/cdb_session.py:186-190 | with a process and a successful write, a command (`SendOutcome`) fails exactly when no marker line arrives, and then with the timeout message |
| Cdb.SendOutcomeClean | src/mcp_server_windbg/cdb_session.py:192-195 | a command never returns a line holding the marker text or ending in whitespace |
| Cdb.SendReturnsReply | src/mcp_server_windbg/cdb_session.py:160-195 | when nothing arrives before the write and exactly one marker line arrives after it, a command returns the lines already buffered followed by its reply's lines before the marker, stripped, and the lines after the marker stay buffered |
| Cdb.FrameInTwoReads | src/mcp_server_windbg/cdb_session.py:129-143 | reading the early lines and then the incoming ones is reading both at once: the two reads' outputs in order, the second read's buffer, and an output exactly when either read held a marker |
| Cdb.RepliedCommandsSucceed | src/mcp_server_windbg/cdb_session.py:104-107 | on a live session, every command of a run succeeds when each write succeeds and each reply carries a marker line |
| Cdb.SucceededRunWrites | src/mcp_server_windbg/cdb_session.py:183 | while the commands of a run succeed, the debugger's input gains exactly their writes, in order |
| Cdb.CdbSession.Launched | src/mcp_server_windbg/cdb_session.py:79-95 | a started session holds the process, has written nothing, and has an empty buffer and output with ready cleared |
| Cdb.CdbSession.FeedLine | src/mcp_server_windbg/cdb_session.py:129-143 | a marker line publishes the buffer as the output, empties the buffer and sets ready; any other line only appends its stripped text to the buffer; the framing invariant is kept |
| Cdb.CdbSession.FeedLines | src/mcp_server_windbg/cdb_session.py:128-143 | handling lines one by one leaves the buffer and the last output that `FrameFrom` specifies; ready is set when a marker came and otherwise keeps its value |
| Cdb.CdbSession.WaitForPrompt | src/mcp_server_windbg/cdb_session.py:148-158 | a failed write is a communication error and writes nothing; otherwise the bare marker is written and the wait succeeds exactly when a marker line arrives, else fails with the prompt timeout; the reader has handled the early lines and, after a successful write, the incoming ones, leaving the buffer, output and ready flag that `FrameFrom` gives for them |
| Cdb.CdbSession.SendCommand | src/mcp_server_windbg/cdb_session.py:160-195 | without a process, it raises the not-running error and changes nothing; otherwise it writes exactly `command + "\n" + marker + "\n"` unless the write raises, and returns what `SendOutcome` specifies; the output is empty afterwards, ready is set exactly when a marker came, and the process is kept |
| Cdb.CdbSession.SendInRun | src/mcp_server_windbg/cdb_session.py:160-195 | the i-th command of a run returns what `OutcomeAt` specifies, and the buffer and input log move on by that one command (`Ran`) |
| Cdb.CdbSession.Shutdown | src/mcp_server_windbg/cdb_session.py:197-215 | it always ends without a process and writes `"q\n"` exactly when a live process was present, so a second call writes nothing |
| Cdb.CdbSession.RunInitialCommands | src/mcp_server_windbg/cdb_session.py:104-107 | it succeeds exactly when every initial command succeeds on the buffer the earlier ones left; otherwise it fails with the error of the first command that fails; on success one command write per initial command is added, in order, and the buffer is the one the commands left |
| Cdb.CdbSession.Start | src/mcp_server_windbg/cdb_session.py:90-107 | without a start-up marker, or when its write fails, the result is "CDB initialization timed out"; otherwise it succeeds exactly when every initial command does and fails with the first failure's error; success gives a fresh session holding the process, whose input is the bare marker followed by the initial commands' writes and whose buffer is the one those commands left |
| Cdb.CdbSession.Open | src/mcp_server_windbg/cdb_session.py:28-107 | the checks run in the source's order: the dump path, the executable lookup, the launch, then the start-up wait; each failure gives its own error; once all pass it succeeds exactly when every initial command does, with a session started with `LaunchArgs` |
| SessionRegistry.Registry.constructor | src/mcp_server_windbg/server.py:21 | the table starts empty |
| SessionRegistry.Registry.GetOrCreateSession | src/mcp_server_windbg/server.py:60-87 | a held session is returned and the table is unchanged; for an absent path creation fails exactly when `CreateFailure` gives a message, and then with INTERNAL_ERROR "Failed to create CDB session: " plus that message, leaving the table unchanged; every other key keeps its entry; creation succeeds exactly when the dump is a file, cdb is found, the launch starts and the start-up marker arrives, and then a fresh session for that path, with the configured timeout, the cdb found and the `LaunchArgs` command line, is added under the absolute path |
| SessionRegistry.CreateFailure | src/mcp_server_windbg/cdb_session.py:54-102 | the constructor's failure message for a new session, from the four checks in the source's order (dump file, cdb lookup, launch, start-up wait); there is none exactly when the dump is a file, cdb is found, the launch starts and the start-up marker is answered |
| SessionRegistry.Registry.UnloadSession | src/mcp_server_windbg/server.py:90-102 | it returns true exactly when a session was held for the absolute path; that session is shut down and only its key is removed; otherwise nothing changes |
| SessionRegistry.Registry.CleanupSessions | src/mcp_server_windbg/server.py:301-309 | every session the table held is shut down, with `"q\n"` written to each live one, and the table ends empty |
| SessionRegistry.UnloadTwice | src/mcp_server_windbg/server.py:90-102 | two unloads of a held dump return true, then false, and only its key is removed |
| SessionRegistry.GetTwice | src/mcp_server_windbg/server.py:68-87 | once a get-or-create succeeds, a second one for the same dump returns the same session |
| ToolReplies.ToolNamed | src/mcp_server_windbg/server.py:282-285 | a known name gives the tool of that name; any other name gives INVALID_PARAMS "Unknown tool: …" |
| ToolReplies.ToolNamesDistinct | src/mcp_server_windbg/server.py:180-239 | each tool is dispatched under its own name |
| ToolReplies.ReportedError | src/mcp_server_windbg/server.py:287-294 | an McpError is reported as it is; any other exception becomes INTERNAL_ERROR "Error executing tool <name>: " followed by its text and the traceback |
| ToolReplies.OpenDumpPlan | src/mcp_server_windbg/server.py:188-206 | `.lastevent` and `!analyze -v` always come first; the stack trace, modules and threads steps appear exactly when their flags are set; the steps keep the fixed order |
| ToolReplies.SectionLinesRecoverable | src/mcp_server_windbg/server.py:189-206 | the code block of a section (`SectionText`) gives back the output lines it was built from |
| ToolReplies.Sections | src/mcp_server_windbg/server.py:186-206 | the reply has one section per step run, in order, each with that step's title and output |
| ToolReplies.ConcatAppend | src/mcp_server_windbg/server.py:210 | joining one more part appends exactly that part |
| ToolReplies.RunCommandReplyLines | src/mcp_server_windbg/server.py:222 | the `run_windbg_cmd` reply (`RunCommandReply`) splits into the header with the command, the opening fence, the output lines (one empty line when there are none) and the closing fence, so both can be read back |
| ToolReplies.RunCommandReplyJoined | src/mcp_server_windbg/server.py:222 | the `run_windbg_cmd` reply is its header lines and its output lines joined with newlines, then the closing fence |
| ToolReplies.CloseDumpReplyDetermines | src/mcp_server_windbg/server.py:228-237 | the `close_windbg_dump` reply determines both the path as given and whether a session was unloaded |
| ToolReplies.ListDumpsReply | src/mcp_server_windbg/server.py:242-280 | a missing directory is INVALID_PARAMS "Directory not found: …"; no matches gives the "No crash dump files" text |
| ToolReplies.ListWindbgDumps | src/mcp_server_windbg/server.py:239-280 | the loop that appends one numbered line per file builds the reply `ListDumpsReply` specifies |
| ToolReplies.ListingNumbersFiles | src/mcp_server_windbg/server.py:264-275 | a non-empty listing's header (`ListingHeader`) gives the number of files in decimal, and file i is listed (`ListingEntry`) as line i+1 with its size text, in the given order |
| ToolReplies.AnalysisResultsFromKeys | src/mcp_server_windbg/server.py:113-117 | a command's lines are stored under its key exactly when it and every earlier command succeeded; entries already stored are kept; keys never reached stay absent |
| ToolReplies.AnalysisResultsFromError | src/mcp_server_windbg/server.py:113-119 | an "error" entry is added exactly when some command fails, holding the first failure's message |
| ToolReplies.AnalysisResultsShape | src/mcp_server_windbg/server.py:111-121 | the results table from an empty start (`AnalysisResults`) has the key, error and absent-key properties above |
| ToolReplies.AnalysisResultsExtend | src/mcp_server_windbg/server.py:113-119 | one more outcome after a run of successes adds its lines under its key, or its message under "error" |
| ToolReplies.AnalysisCommand | src/mcp_server_windbg/server.py:114-119 | the i-th analysis command, once the earlier ones succeeded, returns what `OutcomeAt` specifies and stores its lines under its key or its failure under "error"; the session has been sent exactly the commands run so far |
| ToolReplies.ExecuteCommonAnalysis | src/mcp_server_windbg/server.py:105-121 | the four commands are sent in order until the first failure: each outcome is what `OutcomeAt` specifies on the buffer the earlier commands left, the session's buffer and input are those the commands run leave (`Ran`), and the table is the one `AnalysisResults` gives for the outcomes; without a process only the not-running error is recorded |
| ToolReplies.SendOnHeld | src/mcp_server_windbg/server.py:218 | a command sent to a session the table holds returns what `OutcomeAt` specifies and moves the session on by that command; the session keeps its debugger process, and the table keeps its invariant |
| ToolReplies.AddSection | src/mcp_server_windbg/server.py:188-189 | the next step of the plan is sent; on success its section, from the output the command returned, is appended; on failure nothing is appended and the failure is that command's outcome (`PlanProgress`); the session keeps its process |
| ToolReplies.AddOptionalSection | src/mcp_server_windbg/server.py:196-206 | an optional step is sent and its section added exactly when its flag is set; otherwise nothing is sent; the session keeps its process |
| ToolReplies.AddOptionalSections | src/mcp_server_windbg/server.py:195-206 | after the two fixed steps, the steps run are a prefix of the plan with their commands sent in order, and all of the plan runs exactly when no command fails; the session keeps its process |
| ToolReplies.AddFixedSections | src/mcp_server_windbg/server.py:186-193 | the crash information step and then the crash analysis step are sent, each section tied to its command's outcome (`PlanProgress`); both run exactly when neither fails; the session keeps its process |
| ToolReplies.RunOpenDumpPlan | src/mcp_server_windbg/server.py:186-206 | the steps run are a prefix of the plan and the whole plan exactly when no command fails; the session was sent those steps' commands in order, plus the failing one; each section is its step's title with the output its command returned; a failure is the first failing command's error; the session keeps its process |
| ToolReplies.OpenDumpReply | src/mcp_server_windbg/server.py:186-211 | on the session held under the key, the plan runs as `PlanProgress` states, the whole plan exactly when the reply succeeds, and a successful reply is the concatenation of its sections; a failure is a raised command error; only that session changes and it keeps its process |
| ToolReplies.OpenWindbgDump | src/mcp_server_windbg/server.py:180-211 | a held session is reused, keeps its debugger process, and the table is unchanged; a creation failure is the internal error, with the table unchanged and nothing sent, and happens exactly when the constructor would fail; a created session holds the dump path, the configured timeout, the cdb found and the process launched with `LaunchArgs` (`Configured`); otherwise the session under the absolute path was sent the plan's commands as `RunOpenDumpPlan` states, and a successful reply is the concatenation of the whole plan's sections in order; every session held under another key is left unchanged |
| ToolReplies.RunWindbgCmd | src/mcp_server_windbg/server.py:213-223 | a held session is reused, keeps its debugger process, and the table is unchanged; otherwise a creation failure is the internal error with the table unchanged, and happens exactly when the constructor would fail, or a fresh session is added under the absolute path with the dump path, the configured timeout, the cdb found and the `LaunchArgs` process (`Configured`); the command is written to the session under the absolute path and the reply quotes it with the output `SendOutcome` gives, or the call fails with that command's error; every session held under another key is left unchanged |
| ToolReplies.CloseWindbgDump | src/mcp_server_windbg/server.py:225-237 | the reply says whether a session was held for the dump; that session is shut down, with `"q\n"` written when it is alive, and the table loses exactly that key; every session held under another key is left unchanged |

## Left out

- The reader thread, `threading.Lock` and `threading.Event` are not modelled. The
  reader is a sequential method whose calls come in the `Exchange` order; finer
  interleavings are not modelled.
- Real-time waits are abstract: a wait times out exactly when no marker line is among
  the lines handled during it. The timeout's value appears only in the error message.
- `subprocess.Popen`, the pipes, `poll`, `wait` and `terminate` are abstract. The
  process is a handle, the launch result and the poll result are inputs, and writes are
  appended to a log. `shutdown` records the quit command whenever a live process is
  present; whether that write or a later terminate fails does not change the outcome,
  and the model does not distinguish it.
- `_read_output`'s early return without a pipe and its `IOError`/`ValueError` catch are
  not modelled: a reader that stops simply handles no further lines.
- `unload_session`'s `except Exception: return False` branch (server.py:99-100) is not
  modelled: `shutdown` catches every exception itself and `del` of a present key cannot
  fail, so the branch is unreachable.
- `cleanup_sessions` visits the keys in an unspecified order instead of the dict's
  insertion order. It calls `shutdown`, which never raises, on each held session.
- `Cdb.CdbSession.Start`: after the start-up wait fails, the source calls `shutdown()`
  (cdb_session.py:101) before raising, and the model's body does too. The failed session
  is never returned, so that quit is not observable and no contract states it.
- `verbose` printing, the unused `PROMPT_REGEX`, and the context-manager methods
  `__enter__`/`__exit__` (`__exit__` only calls `shutdown`) are not modelled.
- The listing's search pattern, `glob.glob` and `sort()` are not modelled. The model
  receives the sorted list of matches, and the recursive flag only changes that list.
- The size in MB (`round(getsize / 2**20, 2)`, or "unknown" when `getsize` or
  `getmtime` raises) is floating point, so each file's size text is an input. The
  `getmtime` value itself never reaches the reply.
- Lines from the debugger are arbitrary strings. Nothing states that a line read from
  the pipe holds no newline, so the read-back lemmas for sections and command replies
  require it of the output lines.
- The MCP and pydantic plumbing is not modelled: argument parsing and defaults, the
  tool schemas and `list_tools`, the stdio server, the `atexit` registration, and the
  whole of `__init__.py`.

=== FILE: cdb_session.dfy ===
/** One cdb.exe debugging session over one crash dump: locating the debugger, the
    command line it is started with, the reader that frames its output, sending a
    command and waiting for its marker, and shutting the process down.

    The operating system is abstract here: whether a path names a file and whether the
    host runs Windows are given as a `Host`; the process is a handle that records the
    argument vector it was started with; everything written to the debugger's input is
    appended to `stdin`; the reader thread is the `FeedLine` method, called once per
    line cdb prints; and the lines that reach the reader while a command waits for its
    marker are given with the command as an `Exchange`. */
module Cdb {
  import opened Wrappers
  import opened Text
  import opened Framing

  /** Where cdb.exe is looked for when no usable path is given, in this order. */
  const DEFAULT_CDB_PATHS: seq<string> := [
    @"C:\Program Files (x86)\Windows Kits\10\Debuggers\x64\cdb.exe",
    @"C:\Program Files (x86)\Windows Kits\10\Debuggers\x86\cdb.exe",
    @"C:\Program Files\Debugging Tools for Windows (x64)\cdb.exe",
    @"C:\Program Files\Debugging Tools for Windows (x86)\cdb.exe"
  ]

  const NOT_FOUND_MESSAGE: string := "Could not find cdb.exe. Please provide a valid path."
  const INIT_TIMEOUT_MESSAGE: string := "CDB initialization timed out"
  const NOT_RUNNING_MESSAGE: string := "CDB process is not running"

  /** The file system and platform queries the session makes. */
  datatype Host = Host(isFile: string -> bool, isWindows: bool)

  /** The two exceptions a session raises: `FileNotFoundError` and `CDBError`. */
  datatype SessionError = FileNotFound(message: string) | CdbError(message: string)

  /** A running debugger process, with the argument vector it was launched with. */
  datatype Process = Process(pid: nat, args: seq<string>)

  /** What starting the process did: it started, or `Popen` raised with this text. */
  datatype LaunchOutcome = Started(pid: nat) | LaunchFailed(reason: string)

  /** The debugger's side of one command: the lines the reader handles after the ready
      flag is cleared and before the output is reset (`early`), whether writing to the
      debugger's input raises (and its text), and the lines the reader handles after the
      write and before the caller stops waiting (`incoming`). */
  datatype Exchange = Exchange(early: seq<string>, writeError: Option<string>, incoming: seq<string>)

  /** The debugger's side of the i-th command; nothing arrives for a missing one. */
  function ExchangeAt(exchanges: seq<Exchange>, i: nat): Exchange
  {
    if i < |exchanges| then exchanges[i] else Exchange([], None, [])
  }

  /** Python truthiness of an optional string: present and non-empty. */
  predicate Truthy(s: Option<string>)
  {
    s.Some? && s.value != ""
  }

  /** The first of `paths` that names an existing file. */
  function FirstExisting(paths: seq<string>, isFile: string -> bool): (r: Option<string>)
    ensures r.Some? ==> exists i :: 0 <= i < |paths| && paths[i] == r.value && isFile(r.value) &&
                                    forall j :: 0 <= j < i ==> !isFile(paths[j])
    ensures r.None? <==> forall i :: 0 <= i < |paths| ==> !isFile(paths[i])
    decreases |paths|
  {
    if paths == [] then None
    else if isFile(paths[0]) then Some(paths[0])
    else
      var r := FirstExisting(paths[1..], isFile);
      assert forall i :: 1 <= i < |paths| ==> paths[i] == paths[1..][i - 1];
      r
  }

  /** Where the debugger is: the given path when it names a file; otherwise, on Windows
      only, the first default location that exists; otherwise nowhere. */
  function FindCdb(customPath: Option<string>, host: Host): (r: Option<string>)
    ensures Truthy(customPath) && host.isFile(customPath.value) ==> r == customPath
    ensures r.Some? ==> host.isFile(r.value)
    ensures r.Some? && r != customPath ==> host.isWindows && r.value in DEFAULT_CDB_PATHS
    ensures r.None? <==>
      !(Truthy(customPath) && host.isFile(customPath.value)) &&
      (!host.isWindows || forall i :: 0 <= i < |DEFAULT_CDB_PATHS| ==> !host.isFile(DEFAULT_CDB_PATHS[i]))
  {
    if Truthy(customPath) && host.isFile(customPath.value) then customPath
    else if host.isWindows then FirstExisting(DEFAULT_CDB_PATHS, host.isFile)
    else None
  }

  /** `_find_cdb_executable`: the first-match search, as the source writes it. */
  method FindCdbExecutable(customPath: Option<string>, host: Host) returns (r: Option<string>)
    ensures r == FindCdb(customPath, host)
  {
    if Truthy(customPath) && host.isFile(customPath.value) {
      return customPath;
    }
    if host.isWindows {
      var i := 0;
      while i < |DEFAULT_CDB_PATHS|
        invariant 0 <= i <= |DEFAULT_CDB_PATHS|
        invariant forall j :: 0 <= j < i ==> !host.isFile(DEFAULT_CDB_PATHS[j])
      {
        if host.isFile(DEFAULT_CDB_PATHS[i]) {
          return Some(DEFAULT_CDB_PATHS[i]);
        }
        i := i + 1;
      }
    }
    return None;
  }

  /** The argument vector cdb is started with: the executable, `-z` and the dump; then
      `-y` and the symbols path when one is given; then the additional arguments in
      their order. */
  function LaunchArgs(cdbPath: string, dumpPath: string, symbolsPath: Option<string>, additionalArgs: seq<string>): (args: seq<string>)
    ensures |args| == 3 + (if Truthy(symbolsPath) then 2 else 0) + |additionalArgs|
    ensures args[..3] == [cdbPath, "-z", dumpPath]
    ensures Truthy(symbolsPath) ==> args[3..5] == ["-y", symbolsPath.value]
    ensures args[|args| - |additionalArgs|..] == additionalArgs
  {
    [cdbPath, "-z", dumpPath] + (if Truthy(symbolsPath) then ["-y", symbolsPath.value] else []) + additionalArgs
  }

  /** `cmd_args` as the constructor builds it, extending the list in place. A missing
      list of additional arguments is the empty list, which `extend` treats alike. */
  method BuildArgs(cdbPath: string, dumpPath: string, symbolsPath: Option<string>, additionalArgs: seq<string>)
    returns (args: seq<string>)
    ensures args == LaunchArgs(cdbPath, dumpPath, symbolsPath, additionalArgs)
  {
    args := [cdbPath, "-z", dumpPath];
    if Truthy(symbolsPath) {
      args := args + ["-y", symbolsPath.value];
    }
    if |additionalArgs| > 0 {
      args := args + additionalArgs;
    }
  }

  /** The timeout a command waits for: the override unless it is missing or zero
      (Python's `timeout or self.timeout`). */
  function EffectiveTimeout(timeoutOverride: Option<int>, instanceTimeout: int): (t: int)
    ensures timeoutOverride.Some? && timeoutOverride.value != 0 ==> t == timeoutOverride.value
    ensures timeoutOverride.None? || timeoutOverride.value == 0 ==> t == instanceTimeout
  {
    match timeoutOverride
    case Some(t) => if t != 0 then t else instanceTimeout
    case None => instanceTimeout
  }

  /** What one write to the debugger's input holds for a command. */
  function CommandWrite(command: string): string
  {
    command + "\n" + COMMAND_MARKER + "\n"
  }

  /** The writes for a run of commands, one per command, in order. */
  function CommandWrites(commands: seq<string>): seq<string>
  {
    seq(|commands|, i requires 0 <= i < |commands| => CommandWrite(commands[i]))
  }

  function TimedOutMessage(seconds: int, command: string): string
  {
    "Command timed out after " + IntToString(seconds) + " seconds: " + command
  }

  /** What `send_command` returns or raises, given whether a process is present, what the
      reader had buffered, the effective timeout and the debugger's side of the command. */
  function SendOutcome(running: bool, buffer: seq<string>, command: string, seconds: int, ex: Exchange)
    : Result<seq<string>, SessionError>
  {
    if !running then Failure(CdbError(NOT_RUNNING_MESSAGE))
    else if ex.writeError.Some? then Failure(CdbError("Failed to send command: " + ex.writeError.value))
    else
      var before := FrameFrom(buffer, ex.early);
      var after := FrameFrom(before.pending, ex.incoming);
      if after.outputs != [] then Success(Last(after.outputs))
      else if before.outputs != [] then Success([])
      else Failure(CdbError(TimedOutMessage(seconds, command)))
  }

  /** With a process present and the write succeeding, a command fails exactly when no
      marker line reaches the reader while it waits, and then with the timeout error. */
  lemma SendTimesOutIffNoMarker(buffer: seq<string>, command: string, seconds: int, ex: Exchange)
    requires ex.writeError.None?
    ensures SendOutcome(true, buffer, command, seconds, ex).Failure? <==> MarkerCount(ex.early + ex.incoming) == 0
    ensures SendOutcome(true, buffer, command, seconds, ex).Failure? ==>
      SendOutcome(true, buffer, command, seconds, ex).error == CdbError(TimedOutMessage(seconds, command))
  {
    var before := FrameFrom(buffer, ex.early);
    FrameCount(buffer, ex.early);
    FrameCount(before.pending, ex.incoming);
    MarkerCountAppend(ex.early, ex.incoming);
  }

  lemma {:induction false} MarkerCountAppend(a: seq<string>, b: seq<string>)
    ensures MarkerCount(a + b) == MarkerCount(a) + MarkerCount(b)
    decreases |a|
  {
    if a == [] {
      assert a + b == b;
    } else {
      assert (a + b)[1..] == a[1..] + b;
      MarkerCountAppend(a[1..], b);
    }
  }

  /** Reading `early` and then `incoming` is reading both at once: the outputs of the two
      reads in order and the second read's pending lines, with an output exactly when
      either read held a marker. */
  lemma FrameInTwoReads(buffer: seq<string>, early: seq<string>, incoming: seq<string>)
    ensures var first := FrameFrom(buffer, early);
      var second := FrameFrom(first.pending, incoming);
      && FrameFrom(buffer, early + incoming) == Framed(first.outputs + second.outputs, second.pending)
      && (first.outputs != [] <==> MarkerCount(early) > 0)
      && (second.outputs != [] <==> MarkerCount(incoming) > 0)
      && (first.outputs + second.outputs != [] <==> MarkerCount(early + incoming) > 0)
  {
    FrameAppend(buffer, early, incoming);
    FrameCount(buffer, early);
    FrameCount(FrameFrom(buffer, early).pending, incoming);
    MarkerCountAppend(early, incoming);
  }

  /** The output the reader last published: the latest of `outputs`, or `previous` when
      there is none. */
  function LatestOutput(outputs: seq<seq<string>>, previous: seq<string>): seq<string>
  {
    if outputs == [] then previous else Last(outputs)
  }

  /** Publishing `a` and then `b` leaves the same latest output as publishing `a + b`. */
  lemma LatestOutputAppend(a: seq<seq<string>>, b: seq<seq<string>>, previous: seq<string>)
    ensures LatestOutput(a + b, previous) == LatestOutput(b, LatestOutput(a, previous))
  {
    if b == [] {
      assert a + b == a;
    }
  }

  /** A command returns no line that holds the marker text and none with trailing
      whitespace. */
  lemma SendOutcomeClean(running: bool, buffer: seq<string>, command: string, seconds: int, ex: Exchange)
    requires Clean(buffer)
    ensures SendOutcome(running, buffer, command, seconds, ex).Success? ==>
      Clean(SendOutcome(running, buffer, command, seconds, ex).value)
  {
    var before := FrameFrom(buffer, ex.early);
    FrameClean(buffer, ex.early);
    FrameClean(before.pending, ex.incoming);
  }

  /** When nothing stale is in flight, a command returns exactly the lines buffered since
      the previous marker followed by its own reply, stripped, with the marker line
      dropped; lines arriving after the marker stay buffered for later. */
  lemma SendReturnsReply(buffer: seq<string>, command: string, seconds: int,
                         reply: seq<string>, marker: string, late: seq<string>)
    requires MarkerCount(reply) == 0 && MarkerCount(late) == 0
    requires IsMarkerLine(RStrip(marker))
    ensures SendOutcome(true, buffer, command, seconds, Exchange([], None, reply + [marker] + late))
         == Success(buffer + Kept(reply))
    ensures FrameFrom(buffer, [] + (reply + [marker] + late)).pending == Kept(late)
  {
    FrameReply(buffer, reply, marker, late);
    assert [] + (reply + [marker] + late) == reply + [marker] + late;
  }

  /** The lines the reader handles while a write is answered: the early ones, and the
      incoming ones too unless the write raises. */
  function LinesRead(ex: Exchange): (lines: seq<string>)
    ensures ex.early <= lines
  {
    if ex.writeError.Some? then ex.early else ex.early + ex.incoming
  }

  /** The reader's buffer once a command is over: without a process nothing is read; when
      the write raises only the early lines are read; otherwise all the lines are. */
  function AfterSend(running: bool, buffer: seq<string>, ex: Exchange): seq<string>
  {
    if !running then buffer
    else if ex.writeError.Some? then FrameFrom(buffer, ex.early).pending
    else FrameFrom(buffer, ex.early + ex.incoming).pending
  }

  /** What one command adds to the debugger's input: its write, unless there is no process
      or the write raises. */
  function WriteFor(running: bool, command: string, ex: Exchange): seq<string>
  {
    if running && ex.writeError.None? then [CommandWrite(command)] else []
  }

  /** The reader's buffer after the first `n` commands of a run, `replies[i]` being the
      debugger's side of the i-th. */
  function Drained(running: bool, buffer: seq<string>, replies: seq<Exchange>, n: nat): seq<string>
    decreases n
  {
    if n == 0 then buffer
    else AfterSend(running, Drained(running, buffer, replies, n - 1), ExchangeAt(replies, n - 1))
  }

  /** What the first `n` commands of a run add to the debugger's input. */
  function SentWrites(running: bool, commands: seq<string>, replies: seq<Exchange>, n: nat): seq<string>
    requires n <= |commands|
    decreases n
  {
    if n == 0 then []
    else SentWrites(running, commands, replies, n - 1) + WriteFor(running, commands[n - 1], ExchangeAt(replies, n - 1))
  }

  /** What the i-th command of a run returns or raises, sent on the buffer the commands
      before it left. */
  function OutcomeAt(running: bool, buffer: seq<string>, commands: seq<string>, seconds: int,
                     replies: seq<Exchange>, i: nat): Result<seq<string>, SessionError>
    requires i < |commands|
  {
    SendOutcome(running, Drained(running, buffer, replies, i), commands[i], seconds, ExchangeAt(replies, i))
  }

  /** Every command of a run succeeds. */
  predicate AllSucceed(running: bool, buffer: seq<string>, commands: seq<string>, seconds: int, replies: seq<Exchange>)
  {
    forall i :: 0 <= i < |commands| ==> OutcomeAt(running, buffer, commands, seconds, replies, i).Success?
  }

  /** The first command of a run that fails raises `e`. */
  predicate FailsFirstWith(running: bool, buffer: seq<string>, commands: seq<string>, seconds: int,
                           replies: seq<Exchange>, e: SessionError)
  {
    exists n :: 0 <= n < |commands| && OutcomeAt(running, buffer, commands, seconds, replies, n) == Failure(e) &&
      forall i :: 0 <= i < n ==> OutcomeAt(running, buffer, commands, seconds, replies, i).Success?
  }

  /** On a live session, a run of commands all succeed when every write succeeds and every
      reply carries a marker line. */
  lemma RepliedCommandsSucceed(buffer: seq<string>, commands: seq<string>, seconds: int, replies: seq<Exchange>)
    requires forall i :: 0 <= i < |commands| ==>
      ExchangeAt(replies, i).writeError.None? &&
      MarkerCount(ExchangeAt(replies, i).early + ExchangeAt(replies, i).incoming) > 0
    ensures AllSucceed(true, buffer, commands, seconds, replies)
  {
    forall i | 0 <= i < |commands|
      ensures OutcomeAt(true, buffer, commands, seconds, replies, i).Success?
    {
      SendTimesOutIffNoMarker(Drained(true, buffer, replies, i), commands[i], seconds, ExchangeAt(replies, i));
    }
  }

  /** While the commands of a run succeed, each one's write reached the debugger: the
      input gained exactly their writes, in order. */
  lemma {:induction false} SucceededRunWrites(buffer: seq<string>, commands: seq<string>, seconds: int,
                                              replies: seq<Exchange>, n: nat)
    requires n <= |commands|
    requires forall i :: 0 <= i < n ==> OutcomeAt(true, buffer, commands, seconds, replies, i).Success?
    ensures SentWrites(true, commands, replies, n) == CommandWrites(commands[..n])
  {
    if n > 0 {
      SucceededRunWrites(buffer, commands, seconds, replies, n - 1);
      assert OutcomeAt(true, buffer, commands, seconds, replies, n - 1).Success?;
      assert CommandWrites(commands[..n]) == CommandWrites(commands[..n - 1]) + [CommandWrite(commands[n - 1])];
    }
  }

  /** The debugger answers the start-up marker: the write succeeds and a marker line arrives. */
  predicate StartupAnswered(startup: Exchange)
  {
    startup.writeError.None? && MarkerCount(startup.early + startup.incoming) > 0
  }

  /** The reader's buffer once the start-up marker has been waited for. */
  function StartupBuffer(startup: Exchange): seq<string>
  {
    FrameFrom([], startup.early + startup.incoming).pending
  }

  /** The constructor's checks before the start-up wait all pass: the dump names a file,
      the debugger is found and its process starts. */
  predicate Launchable(dumpPath: string, cdbPath: Option<string>, host: Host, launch: LaunchOutcome)
  {
    dumpPath != "" && host.isFile(dumpPath) && FindCdb(cdbPath, host).Some? && launch.Started?
  }

  class CdbSession {
    const dumpPath: string
    const timeout: int
    const cdbPath: string
    /** The debugger process, or `None` once the session has been shut down. */
    var process: Option<Process>
    /** Everything written to the debugger's input, one entry per write. */
    var stdin: seq<string>
    /** The reader's private buffer of lines since the last marker line. */
    var buffer: seq<string>
    /** The most recently published command output. */
    var outputLines: seq<string>
    /** Whether the ready event is set. */
    var ready: bool
    /** Every line the reader has read from the debugger, before stripping. */
    ghost var received: seq<string>

    ghost predicate Valid()
      reads this
    {
      buffer == Frame(received).pending && Clean(outputLines)
    }

    /** The session right after `Popen` succeeded and before the reader has read anything. */
    constructor Launched(dumpPath: string, timeout: int, cdbPath: string, process: Process)
      ensures Valid()
      ensures this.dumpPath == dumpPath && this.timeout == timeout && this.cdbPath == cdbPath
      ensures this.process == Some(process) && stdin == []
      ensures buffer == [] && outputLines == [] && !ready && received == []
    {
      this.dumpPath := dumpPath;
      this.timeout := timeout;
      this.cdbPath := cdbPath;
      this.process := Some(process);
      stdin := [];
      buffer := [];
      outputLines := [];
      ready := false;
      received := [];
    }

    /** One turn of the reader loop: strip the line and buffer it; on a marker line drop
        it, publish the buffer as the command output, start a new buffer and set ready. */
    method FeedLine(line: string)
      requires Valid()
      modifies this
      ensures Valid()
      ensures received == old(received) + [line]
      ensures process == old(process) && stdin == old(stdin)
      ensures IsMarkerLine(RStrip(line)) ==> outputLines == old(buffer) && buffer == [] && ready
      ensures !IsMarkerLine(RStrip(line)) ==>
        buffer == old(buffer) + [RStrip(line)] && outputLines == old(outputLines) && ready == old(ready)
    {
      var stripped := RStrip(line);
      buffer := buffer + [stripped];
      if Contains(stripped, MARKER_TEXT) {
        if |buffer| > 0 && Contains(buffer[|buffer| - 1], MARKER_TEXT) {
          buffer := buffer[..|buffer| - 1];
        }
        FrameClean([], received);
        outputLines := buffer;
        buffer := [];
        ready := true;
      }
      FrameAppend([], received, [line]);
      received := received + [line];
    }

    /** The reader handling `lines` one after another. */
    method FeedLines(lines: seq<string>)
      requires Valid()
      modifies this
      ensures Valid()
      ensures received == old(received) + lines
      ensures process == old(process) && stdin == old(stdin)
      ensures buffer == FrameFrom(old(buffer), lines).pending
      ensures outputLines == LatestOutput(FrameFrom(old(buffer), lines).outputs, old(outputLines))
      ensures ready == (old(ready) || FrameFrom(old(buffer), lines).outputs != [])
    {
      var i := 0;
      while i < |lines|
        invariant 0 <= i <= |lines|
        invariant Valid()
        invariant received == old(received) + lines[..i]
        invariant process == old(process) && stdin == old(stdin)
        invariant buffer == FrameFrom(old(buffer), lines[..i]).pending
        invariant outputLines == LatestOutput(FrameFrom(old(buffer), lines[..i]).outputs, old(outputLines))
        invariant ready == (old(ready) || FrameFrom(old(buffer), lines[..i]).outputs != [])
      {
        FrameAppend(old(buffer), lines[..i], [lines[i]]);
        LatestOutputAppend(FrameFrom(old(buffer), lines[..i]).outputs,
                           FrameFrom(FrameFrom(old(buffer), lines[..i]).pending, [lines[i]]).outputs, old(outputLines));
        assert lines[..i + 1] == lines[..i] + [lines[i]];
        FeedLine(lines[i]);
        i := i + 1;
      }
      assert lines[..i] == lines;
    }

    /** `_wait_for_prompt`: clear ready, send the bare marker and wait for it. The reader
        handles the early lines, and the incoming ones once the write has succeeded. */
    method WaitForPrompt(ex: Exchange) returns (r: Result<(), SessionError>)
      requires Valid()
      modifies this
      ensures Valid() && process == old(process)
      ensures ex.writeError.Some? ==>
        r == Failure(CdbError("Failed to communicate with CDB: " + ex.writeError.value)) && stdin == old(stdin)
      ensures ex.writeError.None? ==> stdin == old(stdin) + [COMMAND_MARKER + "\n"]
      ensures ex.writeError.None? ==>
        (r.Success? <==> MarkerCount(ex.early + ex.incoming) > 0) &&
        (r.Failure? ==> r.error == CdbError("Timed out waiting for CDB prompt"))
      ensures var framed := FrameFrom(old(buffer), LinesRead(ex));
        && received == old(received) + LinesRead(ex)
        && buffer == framed.pending
        && ready == (framed.outputs != [])
        && outputLines == LatestOutput(framed.outputs, old(outputLines))
    {
      ready := false;
      FeedLines(ex.early);
      if ex.writeError.Some? {
        assert LinesRead(ex) == ex.early;
        return Failure(CdbError("Failed to communicate with CDB: " + ex.writeError.value));
      }
      stdin := stdin + [COMMAND_MARKER + "\n"];
      ghost var first := FrameFrom(old(buffer), ex.early);
      ghost var second := FrameFrom(first.pending, ex.incoming);
      ghost var published := LatestOutput(first.outputs, old(outputLines));
      FeedLines(ex.incoming);
      assert received == old(received) + LinesRead(ex);
      FrameInTwoReads(old(buffer), ex.early, ex.incoming);
      LatestOutputAppend(first.outputs, second.outputs, old(outputLines));
      assert outputLines == LatestOutput(second.outputs, published);
      if !ready {
        return Failure(CdbError("Timed out waiting for CDB prompt"));
      }
      return Success(());
    }

    /** `send_command`: refuse without a process; otherwise clear ready and the output,
        write the command and the marker, wait, and hand over the published output,
        leaving the output empty. */
    method SendCommand(command: string, timeoutOverride: Option<int>, ex: Exchange)
      returns (r: Result<seq<string>, SessionError>)
      requires Valid()
      modifies this
      ensures Valid() && process == old(process)
      ensures r == SendOutcome(old(process).Some?, old(buffer), command, EffectiveTimeout(timeoutOverride, timeout), ex)
      ensures r.Success? ==> Clean(r.value)
      ensures old(process).None? ==>
        stdin == old(stdin) && buffer == old(buffer) && outputLines == old(outputLines) &&
        ready == old(ready) && received == old(received)
      ensures old(process).Some? && ex.writeError.Some? ==>
        stdin == old(stdin) && received == old(received) + ex.early && outputLines == [] &&
        buffer == FrameFrom(old(buffer), ex.early).pending &&
        ready == (FrameFrom(old(buffer), ex.early).outputs != [])
      ensures old(process).Some? && ex.writeError.None? ==>
        stdin == old(stdin) + [CommandWrite(command)] &&
        received == old(received) + ex.early + ex.incoming &&
        buffer == FrameFrom(old(buffer), ex.early + ex.incoming).pending &&
        outputLines == [] && ready == (MarkerCount(ex.early + ex.incoming) > 0)
      ensures stdin == old(stdin) + WriteFor(old(process).Some?, command, ex)
      ensures buffer == AfterSend(old(process).Some?, old(buffer), ex)
    {
      if process.None? {
        return Failure(CdbError(NOT_RUNNING_MESSAGE));
      }
      ready := false;
      FeedLines(ex.early);
      outputLines := [];
      if ex.writeError.Some? {
        return Failure(CdbError("Failed to send command: " + ex.writeError.value));
      }
      stdin := stdin + [CommandWrite(command)];
      ghost var afterEarly := buffer;
      FeedLines(ex.incoming);
      FrameAppend(old(buffer), ex.early, ex.incoming);
      FrameCount(old(buffer), ex.early);
      FrameCount(afterEarly, ex.incoming);
      MarkerCountAppend(ex.early, ex.incoming);
      var seconds := EffectiveTimeout(timeoutOverride, timeout);
      if !ready {
        return Failure(CdbError(TimedOutMessage(seconds, command)));
      }
      r := Success(outputLines);
      outputLines := [];
    }

    /** Since its buffer was `buffer0` and its input log `stdin0`, the session has been
        sent the first `n` commands of a run and nothing else. */
    ghost predicate Ran(commands: seq<string>, replies: seq<Exchange>, buffer0: seq<string>, stdin0: seq<string>, n: nat)
      reads this
    {
      n <= |commands| && buffer == Drained(process.Some?, buffer0, replies, n) &&
      stdin == stdin0 + SentWrites(process.Some?, commands, replies, n)
    }

    /** The i-th command of a run sent with the session's own timeout, once the commands
        before it have been sent. */
    method SendInRun(command: string, ghost commands: seq<string>, replies: seq<Exchange>, i: nat,
                     ghost buffer0: seq<string>, ghost stdin0: seq<string>)
      returns (r: Result<seq<string>, SessionError>)
      requires Valid() && i < |commands| && commands[i] == command && Ran(commands, replies, buffer0, stdin0, i)
      modifies this
      ensures Valid() && process == old(process)
      ensures r == OutcomeAt(process.Some?, buffer0, commands, timeout, replies, i)
      ensures r.Success? ==> Clean(r.value)
      ensures Ran(commands, replies, buffer0, stdin0, i + 1)
    {
      r := SendCommand(command, None, ExchangeAt(replies, i));
      assert stdin0 + SentWrites(process.Some?, commands, replies, i + 1) ==
             stdin0 + SentWrites(process.Some?, commands, replies, i) + WriteFor(process.Some?, commands[i], ExchangeAt(replies, i));
    }

    /** `shutdown`: ask a live process to quit (terminating it if it does not) and forget
        it. It always ends without a process, so a second call changes nothing. `alive`
        is what polling the process reports. */
    method Shutdown(alive: bool)
      requires Valid()
      modifies this
      ensures Valid() && process.None?
      ensures stdin == old(stdin) + (if old(process).Some? && alive then ["q\n"] else [])
      ensures buffer == old(buffer) && outputLines == old(outputLines) && ready == old(ready)
      ensures received == old(received)
    {
      if process.Some? && alive {
        stdin := stdin + ["q\n"];
      }
      process := None;
    }

    /** The end of the constructor: each initial command sent in turn; the first one that
        fails ends the run with its error. `replies[i]` is cdb's side of the i-th command. */
    method RunInitialCommands(commands: seq<string>, replies: seq<Exchange>)
      returns (failure: Option<SessionError>)
      requires Valid() && process.Some?
      modifies this
      ensures Valid() && process == old(process)
      ensures failure.None? <==> AllSucceed(true, old(buffer), commands, timeout, replies)
      ensures failure.Some? ==> FailsFirstWith(true, old(buffer), commands, timeout, replies, failure.value)
      ensures failure.None? ==>
        stdin == old(stdin) + CommandWrites(commands) && buffer == Drained(true, old(buffer), replies, |commands|)
    {
      var i := 0;
      while i < |commands|
        invariant 0 <= i <= |commands|
        invariant Valid() && process == old(process)
        invariant Ran(commands, replies, old(buffer), old(stdin), i)
        invariant forall j :: 0 <= j < i ==> OutcomeAt(true, old(buffer), commands, timeout, replies, j).Success?
      {
        var sent := SendInRun(commands[i], commands, replies, i, old(buffer), old(stdin));
        if sent.Failure? {
          assert FailsFirstWith(true, old(buffer), commands, timeout, replies, sent.error);
          return Some(sent.error);
        }
        i := i + 1;
      }
      SucceededRunWrites(old(buffer), commands, timeout, replies, i);
      assert commands[..i] == commands;
      return None;
    }

    /** The end of the constructor, once the process is started: wait for the first marker
        (shutting down and failing if it does not come), then run the initial commands. */
    static method Start(dumpPath: string, timeout: int, cdbPath: string, process: Process,
                        initialCommands: seq<string>, startup: Exchange, replies: seq<Exchange>)
      returns (r: Result<CdbSession, SessionError>)
      ensures !StartupAnswered(startup) ==> r == Failure(CdbError(INIT_TIMEOUT_MESSAGE))
      ensures StartupAnswered(startup) ==>
        (r.Success? <==> AllSucceed(true, StartupBuffer(startup), initialCommands, timeout, replies)) &&
        (r.Failure? ==> FailsFirstWith(true, StartupBuffer(startup), initialCommands, timeout, replies, r.error))
      ensures r.Success? ==>
        && fresh(r.value) && r.value.Valid()
        && r.value.dumpPath == dumpPath && r.value.timeout == timeout && r.value.cdbPath == cdbPath
        && r.value.process == Some(process)
        && r.value.stdin == [COMMAND_MARKER + "\n"] + CommandWrites(initialCommands)
        && r.value.buffer == Drained(true, StartupBuffer(startup), replies, |initialCommands|)
    {
      var session := new CdbSession.Launched(dumpPath, timeout, cdbPath, process);
      var waited := session.WaitForPrompt(startup);
      if waited.Failure? {
        // Whether the process is still alive does not change the outcome.
        session.Shutdown(true);
        return Failure(CdbError(INIT_TIMEOUT_MESSAGE));
      }
      assert [] + (startup.early + startup.incoming) == startup.early + startup.incoming;
      var failed := session.RunInitialCommands(initialCommands, replies);
      if failed.Some? {
        return Failure(failed.value);
      }
      return Success(session);
    }

    /** The constructor: validate the dump path, find the debugger, build its command
        line, start it, wait for the first marker (shutting down and failing if it does
        not come), then run the initial commands. `replies[i]` is the debugger's side of
        the i-th initial command. */
    static method Open(dumpPath: string, cdbPath: Option<string>, symbolsPath: Option<string>,
                       initialCommands: seq<string>, timeout: int, additionalArgs: seq<string>,
                       host: Host, launch: LaunchOutcome, startup: Exchange, replies: seq<Exchange>)
      returns (r: Result<CdbSession, SessionError>)
      ensures dumpPath == "" || !host.isFile(dumpPath) ==>
        r == Failure(FileNotFound("Dump file not found: " + dumpPath))
      ensures dumpPath != "" && host.isFile(dumpPath) && FindCdb(cdbPath, host).None? ==>
        r == Failure(CdbError(NOT_FOUND_MESSAGE))
      ensures dumpPath != "" && host.isFile(dumpPath) && FindCdb(cdbPath, host).Some? && launch.LaunchFailed? ==>
        r == Failure(CdbError("Failed to start CDB process: " + launch.reason))
      ensures Launchable(dumpPath, cdbPath, host, launch) && !StartupAnswered(startup) ==>
        r == Failure(CdbError(INIT_TIMEOUT_MESSAGE))
      ensures Launchable(dumpPath, cdbPath, host, launch) && StartupAnswered(startup) ==>
        (r.Success? <==> AllSucceed(true, StartupBuffer(startup), initialCommands, timeout, replies)) &&
        (r.Failure? ==> FailsFirstWith(true, StartupBuffer(startup), initialCommands, timeout, replies, r.error))
      ensures r.Success? ==>
        && Launchable(dumpPath, cdbPath, host, launch)
        && fresh(r.value) && r.value.Valid()
        && r.value.dumpPath == dumpPath && r.value.timeout == timeout
        && r.value.cdbPath == FindCdb(cdbPath, host).value
        && r.value.process == Some(Process(launch.pid, LaunchArgs(FindCdb(cdbPath, host).value, dumpPath, symbolsPath, additionalArgs)))
        && r.value.stdin == [COMMAND_MARKER + "\n"] + CommandWrites(initialCommands)
        && r.value.buffer == Drained(true, StartupBuffer(startup), replies, |initialCommands|)
    {
      if dumpPath == "" || !host.isFile(dumpPath) {
        return Failure(FileNotFound("Dump file not found: " + dumpPath));
      }
      var found := FindCdbExecutable(cdbPath, host);
      if found.None? {
        return Failure(CdbError(NOT_FOUND_MESSAGE));
      }
      var args := BuildArgs(found.value, dumpPath, symbolsPath, additionalArgs);
      if launch.LaunchFailed? {
        return Failure(CdbError("Failed to start CDB process: " + launch.reason));
      }
      r := Start(dumpPath, timeout, found.value, Process(launch.pid, args), initialCommands, startup, replies);
    }
  }
}

=== FILE: framing.dfy ===
/** The marker-based framing of cdb's unframed output stream.

    cdb prints plain text with no message boundaries. After every command the session
    sends `.echo COMMAND_COMPLETED_MARKER`; the reader cuts the stream of output lines at
    every line that contains the marker text. The lines read since the previous cut are
    published as one command output, the marker line itself is dropped, and the lines
    after the last cut stay buffered. */
module Framing {
  import opened Text

  /** The debugger command sent after every command to mark its end. */
  const COMMAND_MARKER: string := ".echo COMMAND_COMPLETED_MARKER"

  /** The text searched for in every output line. */
  const MARKER_TEXT: string := "COMMAND_COMPLETED_MARKER"

  /** A line that ends a command output: any line containing the marker text,
      wherever it occurs (cdb prefixes the echo with its prompt). */
  predicate IsMarkerLine(line: string)
  {
    Contains(line, MARKER_TEXT)
  }

  /** What the reader has done with a stream of lines: the outputs it published, in
      order, and the lines still buffered. */
  datatype Framed = Framed(outputs: seq<seq<string>>, pending: seq<string>)

  /** The reader loop run over `lines`, starting with `buffer` already buffered. */
  function FrameFrom(buffer: seq<string>, lines: seq<string>): Framed
    decreases |lines|
  {
    if lines == [] then Framed([], buffer)
    else
      var line := RStrip(lines[0]);
      if IsMarkerLine(line) then
        var rest := FrameFrom([], lines[1..]);
        Framed([buffer] + rest.outputs, rest.pending)
      else
        FrameFrom(buffer + [line], lines[1..])
  }

  /** The reader loop run over everything cdb printed since the process started. */
  function Frame(lines: seq<string>): Framed
  {
    FrameFrom([], lines)
  }

  /** Lines as the reader buffers them: trailing whitespace removed, no marker text. */
  predicate Clean(lines: seq<string>)
  {
    forall i :: 0 <= i < |lines| ==> IsStripped(lines[i]) && !IsMarkerLine(lines[i])
  }

  /** The lines of `lines` that survive framing, stripped, in order. */
  function Kept(lines: seq<string>): seq<string>
    decreases |lines|
  {
    if lines == [] then []
    else
      var line := RStrip(lines[0]);
      (if IsMarkerLine(line) then [] else [line]) + Kept(lines[1..])
  }

  /** The number of marker lines among `lines`. */
  function MarkerCount(lines: seq<string>): nat
    decreases |lines|
  {
    if lines == [] then 0
    else (if IsMarkerLine(RStrip(lines[0])) then 1 else 0) + MarkerCount(lines[1..])
  }

  /** All outputs laid end to end. */
  function Flatten(outputs: seq<seq<string>>): seq<string>
    decreases |outputs|
  {
    if outputs == [] then [] else outputs[0] + Flatten(outputs[1..])
  }

  /** The most recently published output. */
  function Last(outputs: seq<seq<string>>): seq<string>
    requires outputs != []
  {
    outputs[|outputs| - 1]
  }

  lemma {:induction false} KeptClean(lines: seq<string>)
    ensures Clean(Kept(lines))
    decreases |lines|
  {
    if lines != [] {
      KeptClean(lines[1..]);
    }
  }

  /** No published output and no buffered line contains the marker text, and every one
      of them has had its trailing whitespace removed. */
  lemma {:induction false} FrameClean(buffer: seq<string>, lines: seq<string>)
    requires Clean(buffer)
    ensures forall k :: 0 <= k < |FrameFrom(buffer, lines).outputs| ==> Clean(FrameFrom(buffer, lines).outputs[k])
    ensures Clean(FrameFrom(buffer, lines).pending)
    decreases |lines|
  {
    if lines != [] {
      var line := RStrip(lines[0]);
      if IsMarkerLine(line) {
        FrameClean([], lines[1..]);
      } else {
        FrameClean(buffer + [line], lines[1..]);
      }
    }
  }

  /** Framing loses nothing but the marker lines: the published outputs followed by the
      buffer are exactly the initial buffer followed by every non-marker line, stripped;
      from a clean buffer, all of that text is clean. */
  lemma {:induction false} FrameConserves(buffer: seq<string>, lines: seq<string>)
    ensures Flatten(FrameFrom(buffer, lines).outputs) + FrameFrom(buffer, lines).pending == buffer + Kept(lines)
    ensures Clean(buffer) ==> Clean(Flatten(FrameFrom(buffer, lines).outputs) + FrameFrom(buffer, lines).pending)
    decreases |lines|
  {
    KeptClean(lines);
    if lines != [] {
      var line := RStrip(lines[0]);
      if IsMarkerLine(line) {
        FrameConserves([], lines[1..]);
        var rest := FrameFrom([], lines[1..]);
        assert Flatten([buffer] + rest.outputs) == buffer + Flatten(rest.outputs) by {
          assert ([buffer] + rest.outputs)[1..] == rest.outputs;
        }
      } else {
        FrameConserves(buffer + [line], lines[1..]);
      }
    }
  }

  /** One output is published per marker line. */
  lemma {:induction false} FrameCount(buffer: seq<string>, lines: seq<string>)
    ensures |FrameFrom(buffer, lines).outputs| == MarkerCount(lines)
    decreases |lines|
  {
    if lines != [] {
      var line := RStrip(lines[0]);
      if IsMarkerLine(line) {
        FrameCount([], lines[1..]);
      } else {
        FrameCount(buffer + [line], lines[1..]);
      }
    }
  }

  /** Framing is incremental: reading `a` and then `b` is reading `a + b`. */
  lemma {:induction false} FrameAppend(buffer: seq<string>, a: seq<string>, b: seq<string>)
    ensures FrameFrom(buffer, a + b) ==
      Framed(FrameFrom(buffer, a).outputs + FrameFrom(FrameFrom(buffer, a).pending, b).outputs,
             FrameFrom(FrameFrom(buffer, a).pending, b).pending)
    decreases |a|
  {
    if a == [] {
      assert a + b == b;
    } else {
      assert (a + b)[0] == a[0];
      assert (a + b)[1..] == a[1..] + b;
      var line := RStrip(a[0]);
      if IsMarkerLine(line) {
        FrameAppend([], a[1..], b);
      } else {
        FrameAppend(buffer + [line], a[1..], b);
      }
    }
  }

  /** Lines without a marker only extend the buffer. */
  lemma {:induction false} FrameWithoutMarker(buffer: seq<string>, lines: seq<string>)
    requires MarkerCount(lines) == 0
    ensures FrameFrom(buffer, lines) == Framed([], buffer + Kept(lines))
    decreases |lines|
  {
    if lines != [] {
      FrameWithoutMarker(buffer + [RStrip(lines[0])], lines[1..]);
    }
  }

  /** A command's reply followed by the marker line publishes exactly the buffered lines
      and the reply's lines, and whatever arrives after the marker is buffered. */
  lemma {:induction false} FrameReply(buffer: seq<string>, reply: seq<string>, marker: string, late: seq<string>)
    requires MarkerCount(reply) == 0 && MarkerCount(late) == 0
    requires IsMarkerLine(RStrip(marker))
    ensures FrameFrom(buffer, reply + [marker] + late) == Framed([buffer + Kept(reply)], Kept(late))
  {
    FrameAppend(buffer, reply, [marker] + late);
    assert reply + [marker] + late == reply + ([marker] + late);
    FrameWithoutMarker(buffer, reply);
    assert ([marker] + late)[1..] == late;
    FrameWithoutMarker([], late);
  }

  /** Right after a marker line nothing is buffered. */
  lemma NothingPendingAfterMarker(prefix: seq<string>)
    requires prefix == [] || IsMarkerLine(RStrip(prefix[|prefix| - 1]))
    ensures Frame(prefix).pending == []
  {
    if prefix != [] {
      var init := prefix[..|prefix| - 1];
      assert prefix == init + [prefix[|prefix| - 1]];
      FrameAppend([], init, [prefix[|prefix| - 1]]);
    }
  }

  /** A stretch without markers and then a marker line publishes the buffer and that
      stretch as one output; reading goes on from an empty buffer. */
  lemma {:induction false} FrameThroughMarker(buffer: seq<string>, body: seq<string>, marker: string,
                                              rest: seq<string>)
    requires MarkerCount(body) == 0
    requires IsMarkerLine(RStrip(marker))
    ensures FrameFrom(buffer, body + [marker] + rest) ==
            Framed([buffer + Kept(body)] + FrameFrom([], rest).outputs, FrameFrom([], rest).pending)
    decreases |body|
  {
    var lines := body + [marker] + rest;
    if body == [] {
      assert lines[0] == marker && lines[1..] == rest;
      assert buffer + Kept(body) == buffer;
    } else {
      assert lines[0] == body[0] && lines[1..] == body[1..] + [marker] + rest;
      var line := RStrip(body[0]);
      FrameThroughMarker(buffer + [line], body[1..], marker, rest);
      assert buffer + [line] + Kept(body[1..]) == buffer + Kept(body);
    }
  }

  /** The k-th published output is exactly the lines between the k-th and the (k+1)-th
      marker lines (counting from the start of the stream), stripped. */
  lemma OutputBetweenMarkers(prefix: seq<string>, body: seq<string>, marker: string, rest: seq<string>)
    requires prefix == [] || IsMarkerLine(RStrip(prefix[|prefix| - 1]))
    requires MarkerCount(body) == 0
    requires IsMarkerLine(RStrip(marker))
    ensures MarkerCount(prefix) < |Frame(prefix + body + [marker] + rest).outputs|
    ensures Frame(prefix + body + [marker] + rest).outputs[MarkerCount(prefix)] == Kept(body)
  {
    var tail := body + [marker] + rest;
    assert prefix + body + [marker] + rest == prefix + tail;
    FrameAppend([], prefix, tail);
    FrameCount([], prefix);
    NothingPendingAfterMarker(prefix);
    FrameThroughMarker([], body, marker, rest);
    assert [] + Kept(body) == Kept(body);
  }

  /** The buffer holds exactly the lines read since the last marker line, stripped. */
  lemma {:induction false} PendingSinceLastMarker(prefix: seq<string>, marker: string, tail: seq<string>)
    requires IsMarkerLine(RStrip(marker))
    requires MarkerCount(tail) == 0
    ensures Frame(prefix + [marker] + tail).pending == Kept(tail)
  {
    FrameAppend([], prefix + [marker], tail);
    FrameAppend([], prefix, [marker]);
    FrameWithoutMarker([], tail);
  }
}

=== FILE: session_registry.dfy ===
/** The server's table of open sessions, keyed by the absolute path of the dump file:
    get or create a session, unload one, and shut them all down when the server exits.

    `abspath` is the path normalisation of the host, given as a function; the table may
    map a key to `None`, which every operation treats like an absent key. */
module SessionRegistry {
  import opened Wrappers
  import opened Cdb
  import opened Framing

  type Path = string

  /** The JSON-RPC 2.0 error codes the server reports. */
  const INVALID_PARAMS: int := -32602
  const INTERNAL_ERROR: int := -32603

  const CREATE_FAILED_PREFIX: string := "Failed to create CDB session: "

  /** An error reported to the tool caller: a JSON-RPC code and a message. */
  datatype McpError = McpError(code: int, message: string)

  /** The server-wide settings every new session is created with. */
  datatype Config = Config(cdbPath: Option<string>, symbolsPath: Option<string>, timeout: int)

  /** The message of the constructor's exception when a session for `key` with the server
      settings and no initial commands cannot be created: the dump is not a file, cdb is not
      found, the process does not start, or the start-up marker never arrives, checked in
      that order; `None` when creation succeeds. */
  function CreateFailure(key: Path, cfg: Config, host: Host, launch: LaunchOutcome, startup: Exchange)
    : (m: Option<string>)
    ensures m.None? <==> Launchable(key, cfg.cdbPath, host, launch) && StartupAnswered(startup)
  {
    if key == "" || !host.isFile(key) then Some("Dump file not found: " + key)
    else if FindCdb(cfg.cdbPath, host).None? then Some(NOT_FOUND_MESSAGE)
    else if launch.LaunchFailed? then Some("Failed to start CDB process: " + launch.reason)
    else if !StartupAnswered(startup) then Some(INIT_TIMEOUT_MESSAGE)
    else None
  }

  /** A session set up the way `get_or_create_session` sets one up for `key`: the checks
      before the start-up wait passed, and the session holds the dump path, the server's
      timeout, the debugger found and the process launched with `LaunchArgs`. */
  ghost predicate Configured(session: CdbSession, key: Path, cfg: Config, host: Host, launch: LaunchOutcome)
    reads session
  {
    && Launchable(key, cfg.cdbPath, host, launch)
    && session.dumpPath == key && session.timeout == cfg.timeout
    && session.cdbPath == FindCdb(cfg.cdbPath, host).value
    && session.process == Some(Process(launch.pid, LaunchArgs(FindCdb(cfg.cdbPath, host).value, key, cfg.symbolsPath, [])))
  }

  class Registry {
    /** `active_sessions`. */
    var sessions: map<Path, Option<CdbSession>>

    /** The sessions the table holds. */
    ghost function Live(): set<CdbSession>
      reads this
    {
      set k | k in sessions && sessions[k].Some? :: sessions[k].value
    }

    /** Every session in the table still has its process, and no session is held under
        two keys: one debugger process per dump file. */
    ghost predicate Valid()
      reads this, Live()
    {
      && (forall k :: k in sessions && sessions[k].Some? ==>
            sessions[k].value.Valid() && sessions[k].value.process.Some?)
      && (forall k, k' :: k in sessions && k' in sessions && k != k' && sessions[k].Some? && sessions[k'].Some? ==>
            sessions[k].value != sessions[k'].value)
    }

    constructor ()
      ensures Valid() && sessions == map[]
    {
      sessions := map[];
    }

    /** `get_or_create_session`: the session already held for the dump's absolute path,
        or a new one created from the server settings and added under that path. A failed
        creation is reported as an internal error carrying the constructor's message, and
        leaves the table as it was. */
    method GetOrCreateSession(dumpPath: string, cfg: Config, abspath: string -> string,
                              host: Host, launch: LaunchOutcome, startup: Exchange)
      returns (r: Result<CdbSession, McpError>)
      requires Valid()
      modifies this
      ensures Valid()
      ensures var key := abspath(dumpPath);
        key in old(sessions) && old(sessions)[key].Some? ==>
          r == Success(old(sessions)[key].value) && sessions == old(sessions)
      ensures r.Failure? ==> sessions == old(sessions) && r.error.code == INTERNAL_ERROR
      ensures var key := abspath(dumpPath);
        !(key in old(sessions) && old(sessions)[key].Some?) ==>
          var failure := CreateFailure(key, cfg, host, launch, startup);
          && (r.Failure? <==> failure.Some?)
          && (r.Failure? ==> r.error == McpError(INTERNAL_ERROR, CREATE_FAILED_PREFIX + failure.value))
      ensures var key := abspath(dumpPath);
        !(key in old(sessions) && old(sessions)[key].Some?) && r.Success? ==>
          && fresh(r.value) && sessions == old(sessions)[key := Some(r.value)]
          && Configured(r.value, key, cfg, host, launch)
          && r.value.stdin == [COMMAND_MARKER + "\n"] && r.value.buffer == StartupBuffer(startup)
      ensures r.Success? ==> abspath(dumpPath) in sessions && sessions[abspath(dumpPath)] == Some(r.value)
      ensures forall k :: k in old(sessions) && k != abspath(dumpPath) ==> k in sessions && sessions[k] == old(sessions)[k]
    {
      var key := abspath(dumpPath);
      if key !in sessions || sessions[key].None? {
        var created := CdbSession.Open(key, cfg.cdbPath, cfg.symbolsPath, [], cfg.timeout, [],
                                       host, launch, startup, []);
        assert CommandWrites([]) == [];
        if created.Failure? {
          return Failure(McpError(INTERNAL_ERROR, CREATE_FAILED_PREFIX + created.error.message));
        }
        sessions := sessions[key := Some(created.value)];
        return Success(created.value);
      }
      return Success(sessions[key].value);
    }

    /** `unload_session`: shut down and remove the session held for the dump's absolute
        path; report whether there was one. Nothing else changes. */
    method UnloadSession(dumpPath: string, abspath: string -> string, alive: bool) returns (ok: bool)
      requires Valid()
      modifies this, Live()
      ensures Valid()
      ensures var key := abspath(dumpPath);
        ok == (key in old(sessions) && old(sessions)[key].Some?)
      ensures !ok ==> sessions == old(sessions) && forall s :: s in old(Live()) ==> unchanged(s)
      ensures var key := abspath(dumpPath);
        ok ==>
          && sessions == old(sessions) - {key}
          && old(sessions)[key].value.process.None?
          && old(sessions)[key].value.stdin == old(sessions[key].value.stdin) + (if alive then ["q\n"] else [])
          && forall s :: s in Live() ==> unchanged(s)
    {
      var key := abspath(dumpPath);
      if key in sessions && sessions[key].Some? {
        var session := sessions[key].value;
        session.Shutdown(alive);
        sessions := sessions - {key};
        return true;
      }
      return false;
    }

    /** `cleanup_sessions`: shut down every session in the table, then empty it. `alive`
        is what polling each key's process reports. */
    method CleanupSessions(alive: Path -> bool)
      requires Valid()
      modifies this, Live()
      ensures Valid() && sessions == map[]
      ensures forall s :: s in old(Live()) ==> s.process.None? && s.Valid()
      ensures forall k :: k in old(sessions) && old(sessions)[k].Some? ==>
        old(sessions)[k].value.stdin == old(sessions[k].value.stdin) + (if alive(k) then ["q\n"] else [])
    {
      var pending := sessions.Keys;
      while pending != {}
        invariant pending <= sessions.Keys
        invariant sessions == old(sessions)
        invariant forall k :: k in sessions && sessions[k].Some? ==> sessions[k].value.Valid()
        invariant forall k :: k in sessions && k !in pending && sessions[k].Some? ==>
          sessions[k].value.process.None? &&
          sessions[k].value.stdin == old(sessions[k].value.stdin) + (if alive(k) then ["q\n"] else [])
        invariant forall k :: k in pending && sessions[k].Some? ==>
          sessions[k].value.process.Some? && sessions[k].value.stdin == old(sessions[k].value.stdin)
        decreases pending
      {
        var key :| key in pending;
        match sessions[key] {
          case Some(session) => session.Shutdown(alive(key));
          case None =>
        }
        pending := pending - {key};
      }
      sessions := map[];
    }
  }

  /** Unloading the same dump twice: the first call finds the session, the second finds
      nothing. */
  method UnloadTwice(reg: Registry, dumpPath: string, abspath: string -> string, alive: bool)
    returns (first: bool, second: bool)
    requires reg.Valid()
    requires abspath(dumpPath) in reg.sessions && reg.sessions[abspath(dumpPath)].Some?
    modifies reg, reg.Live()
    ensures first && !second
    ensures reg.sessions == old(reg.sessions) - {abspath(dumpPath)}
  {
    first := reg.UnloadSession(dumpPath, abspath, alive);
    second := reg.UnloadSession(dumpPath, abspath, alive);
  }

  /** Asking twice for the same dump: once the first call has a session, the second call
      returns that same session and leaves the table alone. */
  method GetTwice(reg: Registry, dumpPath: string, cfg: Config, abspath: string -> string,
                  host: Host, launch: LaunchOutcome, startup: Exchange, again: LaunchOutcome)
    returns (first: Result<CdbSession, McpError>, second: Result<CdbSession, McpError>)
    requires reg.Valid()
    modifies reg, reg.Live()
    ensures first.Success? ==> second == first
  {
    first := reg.GetOrCreateSession(dumpPath, cfg, abspath, host, launch, startup);
    second := reg.GetOrCreateSession(dumpPath, cfg, abspath, host, again, startup);
  }
}

=== FILE: text.dfy ===
/** The few string operations of Python that the debugger session relies on. */
module Text {

  /** Python's `str.isspace()`: the characters `str.rstrip()` removes. */
  predicate IsSpace(c: char)
  {
    c == ' ' || ('\t' <= c <= '\r') || ('\U{1C}' <= c <= '\U{1F}') ||
    c == '\U{85}' || c == '\U{A0}' || c == '\U{1680}' || ('\U{2000}' <= c <= '\U{200A}') ||
    c == '\U{2028}' || c == '\U{2029}' || c == '\U{202F}' || c == '\U{205F}' || c == '\U{3000}'
  }

  /** A line that `rstrip()` leaves alone. */
  predicate IsStripped(s: string)
  {
    s == [] || !IsSpace(s[|s| - 1])
  }

  /** Python's `s.rstrip()`: the longest prefix of `s` that does not end in whitespace. */
  function RStrip(s: string): (r: string)
    ensures r <= s
    ensures IsStripped(r)
    ensures forall i :: |r| <= i < |s| ==> IsSpace(s[i])
    decreases |s|
  {
    if s != [] && IsSpace(s[|s| - 1]) then RStrip(s[..|s| - 1]) else s
  }

  /** Python's `pat in s`, equivalently a successful `re.search` for a literal pattern. */
  predicate Contains(s: string, pat: string)
    decreases |s|
  {
    pat <= s || (s != [] && Contains(s[1..], pat))
  }

  /** `pat` occurs in `s` starting at position `i`. */
  predicate OccursAt(s: string, pat: string, i: nat)
  {
    i + |pat| <= |s| && s[i..i + |pat|] == pat
  }

  /** `pat in s` holds exactly when `pat` occurs in `s` at some position. */
  lemma {:induction false} ContainsAt(s: string, pat: string)
    ensures Contains(s, pat) <==> exists i: nat :: OccursAt(s, pat, i)
    decreases |s|
  {
    if pat <= s {
      assert OccursAt(s, pat, 0);
    } else if s != [] {
      ContainsAt(s[1..], pat);
      if j: nat :| OccursAt(s[1..], pat, j) {
        OccursAtShift(s, pat, j + 1);
      }
      if i: nat :| OccursAt(s, pat, i) {
        assert i != 0;
        OccursAtShift(s, pat, i);
      }
    }
  }

  /** Past the first character, `pat` occurs in `s` where it occurs one position earlier
      in the rest of `s`. */
  lemma OccursAtShift(s: string, pat: string, i: nat)
    requires s != [] && i >= 1
    ensures OccursAt(s, pat, i) <==> OccursAt(s[1..], pat, i - 1)
  {
    if i + |pat| <= |s| {
      var here, there := s[i..i + |pat|], s[1..][i - 1..i - 1 + |pat|];
      forall k | 0 <= k < |pat|
        ensures here[k] == there[k]
      {
        assert there[k] == s[1..][i - 1 + k] == s[i + k];
      }
      assert here == there;
    }
  }

  /** Python's `sep.join(parts)`. */
  function Join(sep: string, parts: seq<string>): string
    decreases |parts|
  {
    if |parts| == 0 then ""
    else if |parts| == 1 then parts[0]
    else parts[0] + sep + Join(sep, parts[1..])
  }

  /** Python's `s.split(c)` for a single separator character; never empty. */
  function Split(s: string, c: char): (r: seq<string>)
    ensures |r| >= 1
    decreases |s|
  {
    if s == [] then [""]
    else
      var rest := Split(s[1..], c);
      if s[0] == c then [""] + rest else [[s[0]] + rest[0]] + rest[1..]
  }

  lemma {:induction false} SplitWithoutSeparator(s: string, c: char)
    requires c !in s
    ensures Split(s, c) == [s]
    decreases |s|
  {
    if s != [] {
      assert c !in s[1..];
      SplitWithoutSeparator(s[1..], c);
      assert [s[0]] + s[1..] == s;
    }
  }

  lemma {:induction false} SplitAtFirstSeparator(x: string, c: char, t: string)
    requires c !in x
    ensures Split(x + [c] + t, c) == [x] + Split(t, c)
    decreases |x|
  {
    if x == [] {
      assert x + [c] + t == [c] + t;
      assert ([c] + t)[1..] == t;
    } else {
      var s := x + [c] + t;
      assert s[0] == x[0];
      assert s[1..] == x[1..] + [c] + t;
      assert c !in x[1..];
      SplitAtFirstSeparator(x[1..], c, t);
      assert [x[0]] + x[1..] == x;
    }
  }

  /** Joining lines with a newline and splitting the text at newlines gives the lines back,
      provided there is at least one line and no line holds a newline of its own. */
  lemma {:induction false} SplitJoin(parts: seq<string>, c: char)
    requires |parts| >= 1
    requires forall i :: 0 <= i < |parts| ==> c !in parts[i]
    ensures Split(Join([c], parts), c) == parts
    decreases |parts|
  {
    if |parts| == 1 {
      SplitWithoutSeparator(parts[0], c);
    } else {
      SplitJoin(parts[1..], c);
      SplitAtFirstSeparator(parts[0], c, Join([c], parts[1..]));
      assert [parts[0]] + parts[1..] == parts;
    }
  }

  /** Splitting text that starts with joined parts and a separator gives the parts back,
      followed by the pieces of the rest. */
  /** Joining two or more parts and appending a separator and a rest puts the first part,
      a separator, then the remaining parts joined and followed by the same rest. */
  lemma JoinThenCons(parts: seq<string>, c: char, rest: string)
    requires |parts| >= 2
    ensures Join([c], parts) + [c] + rest == parts[0] + [c] + (Join([c], parts[1..]) + [c] + rest)
  {
    var joined := Join([c], parts[1..]);
    assert Join([c], parts) == parts[0] + [c] + joined;
    assert (parts[0] + [c] + joined) + [c] + rest == parts[0] + [c] + (joined + [c] + rest);
  }

  lemma {:induction false} SplitJoinThen(parts: seq<string>, c: char, rest: string)
    requires |parts| >= 1
    requires forall i :: 0 <= i < |parts| ==> c !in parts[i]
    ensures Split(Join([c], parts) + [c] + rest, c) == parts + Split(rest, c)
    decreases |parts|
  {
    if |parts| == 1 {
      SplitAtFirstSeparator(parts[0], c, rest);
      assert [parts[0]] == parts;
    } else {
      var tail := Join([c], parts[1..]) + [c] + rest;
      JoinThenCons(parts, c, rest);
      assert forall i :: 0 <= i < |parts[1..]| ==> c !in parts[1..][i] by {
        forall i | 0 <= i < |parts[1..]| ensures c !in parts[1..][i] {
          assert parts[1..][i] == parts[i + 1];
        }
      }
      SplitJoinThen(parts[1..], c, rest);
      SplitAtFirstSeparator(parts[0], c, tail);
      assert [parts[0]] + (parts[1..] + Split(rest, c)) == parts + Split(rest, c) by {
        assert [parts[0]] + parts[1..] == parts;
      }
    }
  }


  /** The decimal digit character for `d`. */
  function DigitChar(d: nat): (c: char)
    requires d < 10
    ensures '0' <= c <= '9'
  {
    ('0' as int + d) as char
  }

  /** Python's `str(n)` for a natural number: decimal digits, no leading zero. */
  function NatToString(n: nat): (r: string)
    ensures |r| >= 1
    ensures forall i :: 0 <= i < |r| ==> '0' <= r[i] <= '9'
    ensures r[0] == '0' ==> n == 0
    decreases n
  {
    if n < 10 then [DigitChar(n)] else NatToString(n / 10) + [DigitChar(n % 10)]
  }

  /** The number a string of decimal digits denotes. */
  function DecimalValue(s: string): nat
    requires forall i :: 0 <= i < |s| ==> '0' <= s[i] <= '9'
    decreases |s|
  {
    if s == [] then 0 else 10 * DecimalValue(s[..|s| - 1]) + (s[|s| - 1] as int - '0' as int)
  }

  /** Reading back the decimal text of a number gives the number. */
  lemma {:induction false} DecimalRoundTrip(n: nat)
    ensures DecimalValue(NatToString(n)) == n
    decreases n
  {
    if n >= 10 {
      DecimalRoundTrip(n / 10);
      var s := NatToString(n);
      assert s[..|s| - 1] == NatToString(n / 10);
    }
  }

  /** Python's `str(i)` for an integer. */
  function IntToString(i: int): string
  {
    if i < 0 then "-" + NatToString(-i) else NatToString(i)
  }
}

=== FILE: tool_replies.dfy ===
/** What the server's tools send and reply: the dispatch on the tool name, the fixed
    command plan of `open_windbg_dump` and its Markdown sections, the reply of
    `run_windbg_cmd`, `close_windbg_dump` and `list_windbg_dumps`, and the common
    analysis commands with their results table. */
module ToolReplies {
  import opened Wrappers
  import opened Text
  import opened Cdb
  import opened SessionRegistry
  import opened Framing

  /** The four tools the server offers. */
  datatype Tool = OpenDump | RunCommand | CloseDump | ListDumps
  {
    function Name(): string
    {
      match this
      case OpenDump => "open_windbg_dump"
      case RunCommand => "run_windbg_cmd"
      case CloseDump => "close_windbg_dump"
      case ListDumps => "list_windbg_dumps"
    }
  }

  /** How a tool call fails: an error reported as it is, or an exception from the session
      that the server wraps before reporting it. */
  datatype ToolError = Reported(error: McpError) | Raised(cause: SessionError)

  /** `call_tool`'s dispatch: the tool of that name, or the unknown-tool error. */
  function ToolNamed(name: string): (r: Result<Tool, McpError>)
    ensures r.Success? ==> r.value.Name() == name
    ensures r.Failure? ==> r.error == McpError(INVALID_PARAMS, "Unknown tool: " + name)
  {
    if name == "open_windbg_dump" then Success(OpenDump)
    else if name == "run_windbg_cmd" then Success(RunCommand)
    else if name == "close_windbg_dump" then Success(CloseDump)
    else if name == "list_windbg_dumps" then Success(ListDumps)
    else Failure(McpError(INVALID_PARAMS, "Unknown tool: " + name))
  }

  /** What `call_tool` reports when a tool fails: an `McpError` as it is; any other
      exception as an internal error that names the tool and carries the exception's text
      and the traceback. */
  function ReportedError(name: string, e: ToolError, traceback: string): (r: McpError)
    ensures e.Reported? ==> r == e.error
    ensures e.Raised? ==>
      && r.code == INTERNAL_ERROR
      && "Error executing tool " + name + ": " <= r.message
      && r.message[|"Error executing tool " + name + ": "|..] == e.cause.message + "\n" + traceback
  {
    match e
    case Reported(error) => error
    case Raised(cause) => McpError(INTERNAL_ERROR, "Error executing tool " + name + ": " + cause.message + "\n" + traceback)
  }

  /** Every tool is found under its own name, so the names are distinct. */
  lemma ToolNamesDistinct(t: Tool)
    ensures ToolNamed(t.Name()) == Success(t)
  {
  }

  /** The sections of the `open_windbg_dump` reply, each with the command it runs. */
  datatype Step = CrashInfo | CrashAnalysis | StackTrace | LoadedModules | Threads
  {
    function Title(): string
    {
      match this
      case CrashInfo => "Crash Information"
      case CrashAnalysis => "Crash Analysis"
      case StackTrace => "Stack Trace"
      case LoadedModules => "Loaded Modules"
      case Threads => "Threads"
    }

    function Command(): string
    {
      match this
      case CrashInfo => ".lastevent"
      case CrashAnalysis => "!analyze -v"
      case StackTrace => "kb"
      case LoadedModules => "lm"
      case Threads => "~"
    }

    /** The position of the step in the full plan. */
    function Order(): nat
    {
      match this
      case CrashInfo => 0
      case CrashAnalysis => 1
      case StackTrace => 2
      case LoadedModules => 3
      case Threads => 4
    }
  }

  /** The commands `open_windbg_dump` runs: always the last event and the analysis, first;
      then the stack trace, the modules and the threads, each exactly when asked for;
      always in the order of the full plan. */
  function OpenDumpPlan(includeStackTrace: bool, includeModules: bool, includeThreads: bool): (plan: seq<Step>)
    ensures |plan| >= 2 && plan[0] == CrashInfo && plan[1] == CrashAnalysis
    ensures StackTrace in plan <==> includeStackTrace
    ensures LoadedModules in plan <==> includeModules
    ensures Threads in plan <==> includeThreads
    ensures forall i, j :: 0 <= i < j < |plan| ==> plan[i].Order() < plan[j].Order()
  {
    [CrashInfo, CrashAnalysis]
      + (if includeStackTrace then [StackTrace] else [])
      + (if includeModules then [LoadedModules] else [])
      + (if includeThreads then [Threads] else [])
  }

  /** One Markdown section of the `open_windbg_dump` reply: a heading and the command's
      output lines in a code block. */
  function SectionText(title: string, lines: seq<string>): string
  {
    "### " + title + "\n```\n" + Join("\n", lines) + "\n```\n\n"
  }

  /** The code block of a section gives back the output lines it was built from, when
      there is at least one and none holds a newline. */
  lemma SectionLinesRecoverable(title: string, lines: seq<string>)
    requires |lines| >= 1
    requires forall i :: 0 <= i < |lines| ==> '\n' !in lines[i]
    ensures exists body :: SectionText(title, lines) == "### " + title + "\n```\n" + body + "\n```\n\n" &&
                           Split(body, '\n') == lines
  {
    SplitJoin(lines, '\n');
    assert SectionText(title, lines) == "### " + title + "\n```\n" + Join("\n", lines) + "\n```\n\n";
  }

  /** Python's `"".join(parts)`. */
  function Concat(parts: seq<string>): string
    decreases |parts|
  {
    if parts == [] then "" else parts[0] + Concat(parts[1..])
  }

  /** Joining one more part appends that part. */
  lemma {:induction false} ConcatAppend(parts: seq<string>, part: string)
    ensures Concat(parts + [part]) == Concat(parts) + part
    decreases |parts|
  {
    if parts == [] {
      assert [] + [part] == [part];
    } else {
      assert (parts + [part])[1..] == parts[1..] + [part];
      ConcatAppend(parts[1..], part);
    }
  }

  /** The reply of `run_windbg_cmd`. */
  function RunCommandReply(command: string, output: seq<string>): string
  {
    "Command: " + command + "\n\nOutput:\n```\n" + Join("\n", output) + "\n```"
  }

  /** The `run_windbg_cmd` reply gives back the command and its output lines: its lines
      are the header, the opening fence, the output (one empty line when there is none)
      and the closing fence, when neither the command nor any output line holds a
      newline. */
  lemma RunCommandReplyLines(command: string, output: seq<string>)
    requires '\n' !in command
    requires forall i :: 0 <= i < |output| ==> '\n' !in output[i]
    ensures Split(RunCommandReply(command, output), '\n') ==
      ["Command: " + command, "", "Output:", "```"] + (if output == [] then [""] else output) + ["```"]
  {
    var header := ["Command: " + command, "", "Output:", "```"];
    var body := if output == [] then [""] else output;
    RunCommandReplyJoined(command, output);
    assert '\n' !in header[0];
    SplitJoinThen(header, '\n', Join("\n", body) + "\n" + "```");
    SplitJoinThen(body, '\n', "```");
    SplitWithoutSeparator("```", '\n');
  }

  /** The `run_windbg_cmd` reply is its header lines and its output lines (one empty line
      when there is none) joined with newlines, then the closing fence on a line of its own. */
  lemma RunCommandReplyJoined(command: string, output: seq<string>)
    ensures RunCommandReply(command, output) ==
      Join("\n", ["Command: " + command, "", "Output:", "```"]) + "\n" +
      (Join("\n", if output == [] then [""] else output) + "\n" + "```")
  {
    var header := ["Command: " + command, "", "Output:", "```"];
    var lines := Join("\n", if output == [] then [""] else output);
    assert Join("\n", header) == "Command: " + command + "\n\nOutput:\n```" by {
      assert header[1..][1..] == ["Output:", "```"];
      assert Join("\n", ["Output:", "```"]) == "Output:\n```";
      assert Join("\n", header[1..]) == "\nOutput:\n```";
    }
    assert Join("\n", if output == [] then [""] else output) == Join("\n", output);
    var opening := "Command: " + command + "\n\nOutput:\n```";
    assert "Command: " + command + "\n\nOutput:\n```\n" == opening + "\n";
    assert "\n```" == "\n" + "```";
    assert opening + "\n" + lines + ("\n" + "```") == opening + "\n" + (lines + "\n" + "```");
  }

  /** The reply of `close_windbg_dump`, naming the path as the caller gave it. */
  function CloseDumpReply(dumpPath: string, unloaded: bool): string
  {
    if unloaded then "Successfully unloaded crash dump: " + dumpPath
    else "No active session found for crash dump: " + dumpPath
  }

  /** The `close_windbg_dump` reply determines both the path as given and whether a
      session was unloaded. */
  lemma CloseDumpReplyDetermines(dumpPath: string, unloaded: bool, dumpPath': string, unloaded': bool)
    ensures CloseDumpReply(dumpPath, unloaded) == CloseDumpReply(dumpPath', unloaded') <==>
            dumpPath == dumpPath' && unloaded == unloaded'
  {
    var r, r' := CloseDumpReply(dumpPath, unloaded), CloseDumpReply(dumpPath', unloaded');
    if unloaded != unloaded' {
      assert r[0] != r'[0];
    } else if r == r' {
      var prefix := if unloaded then "Successfully unloaded crash dump: " else "No active session found for crash dump: ";
      assert r == prefix + dumpPath && r' == prefix + dumpPath';
      assert dumpPath == r[|prefix|..] == r'[|prefix|..] == dumpPath';
    }
  }

  /** One line of the dump listing; the size is the text the host reports. */
  function ListingEntry(number: nat, file: string, size: string): string
  {
    NatToString(number) + ". " + file + " (" + size + " MB)\n"
  }

  /** The listing lines for `files`, numbered from 1. */
  function ListingEntries(files: seq<string>, sizeText: string -> string): seq<string>
  {
    seq(|files|, i requires 0 <= i < |files| => ListingEntry(i + 1, files[i], sizeText(files[i])))
  }

  function ListingHeader(count: nat, directory: string): string
  {
    "Found " + NatToString(count) + " crash dump file(s) in " + directory + ":\n\n"
  }

  /** The reply of `list_windbg_dumps` over the sorted matches of the search. */
  function ListDumpsReply(directory: string, isDirectory: bool, files: seq<string>, sizeText: string -> string)
    : (r: Result<string, McpError>)
    ensures !isDirectory <==> r.Failure?
    ensures r.Failure? ==> r.error == McpError(INVALID_PARAMS, "Directory not found: " + directory)
    ensures isDirectory && files == [] ==> r == Success("No crash dump files (*.dmp) found in " + directory)
  {
    if !isDirectory then Failure(McpError(INVALID_PARAMS, "Directory not found: " + directory))
    else if files == [] then Success("No crash dump files (*.dmp) found in " + directory)
    else Success(ListingHeader(|files|, directory) + Concat(ListingEntries(files, sizeText)))
  }

  /** One more file adds its numbered line to the end of the listing. */
  lemma ListingStep(header: string, files: seq<string>, sizeText: string -> string, i: nat)
    requires i < |files|
    ensures header + Concat(ListingEntries(files[..i + 1], sizeText)) ==
            header + Concat(ListingEntries(files[..i], sizeText)) + ListingEntry(i + 1, files[i], sizeText(files[i]))
  {
    var entry := ListingEntry(i + 1, files[i], sizeText(files[i]));
    assert ListingEntries(files[..i + 1], sizeText) == ListingEntries(files[..i], sizeText) + [entry];
    ConcatAppend(ListingEntries(files[..i], sizeText), entry);
  }

  /** The `list_windbg_dumps` branch of `call_tool`: the reply text is built line by line
      over the sorted matches. */
  method ListWindbgDumps(directory: string, isDirectory: bool, files: seq<string>, sizeText: string -> string)
    returns (r: Result<string, McpError>)
    ensures r == ListDumpsReply(directory, isDirectory, files, sizeText)
  {
    if !isDirectory {
      return Failure(McpError(INVALID_PARAMS, "Directory not found: " + directory));
    }
    if files == [] {
      return Success("No crash dump files (*.dmp) found in " + directory);
    }
    var header := ListingHeader(|files|, directory);
    var text := header;
    var i := 0;
    while i < |files|
      invariant 0 <= i <= |files|
      invariant text == header + Concat(ListingEntries(files[..i], sizeText))
    {
      ListingStep(header, files, sizeText, i);
      text := text + ListingEntry(i + 1, files[i], sizeText(files[i]));
      i := i + 1;
    }
    assert files[..i] == files;
    return Success(text);
  }

  /** A non-empty listing states how many files it lists, and lists every file once, in
      the given order, numbered from 1. */
  lemma ListingNumbersFiles(directory: string, files: seq<string>, sizeText: string -> string)
    requires files != []
    ensures var r := ListDumpsReply(directory, true, files, sizeText);
      exists count, entries ::
        && r == Success("Found " + count + " crash dump file(s) in " + directory + ":\n\n" + Concat(entries))
        && (forall i :: 0 <= i < |count| ==> '0' <= count[i] <= '9')
        && DecimalValue(count) == |files|
        && |entries| == |files|
        && forall i :: 0 <= i < |files| ==> entries[i] == NatToString(i + 1) + ". " + files[i] + " (" + sizeText(files[i]) + " MB)\n"
  {
    var count := NatToString(|files|);
    var entries := ListingEntries(files, sizeText);
    DecimalRoundTrip(|files|);
    assert ListDumpsReply(directory, true, files, sizeText)
        == Success("Found " + count + " crash dump file(s) in " + directory + ":\n\n" + Concat(entries));
    assert forall i :: 0 <= i < |files| ==>
      entries[i] == NatToString(i + 1) + ". " + files[i] + " (" + sizeText(files[i]) + " MB)\n";
  }

  /** The keys and commands of `execute_common_analysis_commands`, in order. */
  const ANALYSIS_KEYS: seq<string> := ["info", "exception", "modules", "threads"]
  const ANALYSIS_COMMANDS: seq<string> := [".lastevent", "!analyze -v", "lm", "~"]

  /** A value of the analysis results table: a command's lines, or the error text. */
  datatype Entry = Lines(lines: seq<string>) | ErrorText(text: string)

  /** The results table as filled in from `results` on, from the i-th outcome of the
      analysis commands: each success is stored under its key; the first failure is
      stored under "error" and ends the run. */
  function AnalysisResultsFrom(results: map<string, Entry>, outcomes: seq<Result<seq<string>, SessionError>>, i: nat)
    : map<string, Entry>
    decreases |ANALYSIS_KEYS| - i
  {
    if i >= |ANALYSIS_KEYS| || i >= |outcomes| then results
    else match outcomes[i]
      case Success(lines) => AnalysisResultsFrom(results[ANALYSIS_KEYS[i] := Lines(lines)], outcomes, i + 1)
      case Failure(e) => results["error" := ErrorText(e.message)]
  }

  /** The results table `execute_common_analysis_commands` returns for these outcomes. */
  function AnalysisResults(outcomes: seq<Result<seq<string>, SessionError>>): map<string, Entry>
  {
    AnalysisResultsFrom(map[], outcomes, 0)
  }

  /** Whether every analysis command from the i-th to just before the j-th succeeded. */
  predicate SucceededBetween(outcomes: seq<Result<seq<string>, SessionError>>, i: nat, j: nat)
  {
    forall m :: i <= m < j && m < |outcomes| ==> outcomes[m].Success?
  }

  /** Filling in from the i-th outcome keeps the entries already there, and stores the
      j-th command's lines exactly when the commands from the i-th to the j-th succeeded. */
  lemma {:induction false} AnalysisResultsFromKeys(results: map<string, Entry>,
                                                   outcomes: seq<Result<seq<string>, SessionError>>, i: nat)
    requires |outcomes| <= |ANALYSIS_KEYS|
    requires "error" !in results
    requires forall j :: i <= j < |ANALYSIS_KEYS| ==> ANALYSIS_KEYS[j] !in results
    ensures forall k :: k in results ==> k in AnalysisResultsFrom(results, outcomes, i) &&
                                         AnalysisResultsFrom(results, outcomes, i)[k] == results[k]
    ensures forall j :: i <= j < |outcomes| ==>
      (ANALYSIS_KEYS[j] in AnalysisResultsFrom(results, outcomes, i) <==> SucceededBetween(outcomes, i, j + 1)) &&
      (ANALYSIS_KEYS[j] in AnalysisResultsFrom(results, outcomes, i) ==>
         AnalysisResultsFrom(results, outcomes, i)[ANALYSIS_KEYS[j]] == Lines(outcomes[j].value))
    ensures forall j :: i <= j < |ANALYSIS_KEYS| && |outcomes| <= j ==>
      ANALYSIS_KEYS[j] !in AnalysisResultsFrom(results, outcomes, i)
    decreases |ANALYSIS_KEYS| - i
  {
    if i < |outcomes| && outcomes[i].Success? {
      AnalysisResultsFromKeys(results[ANALYSIS_KEYS[i] := Lines(outcomes[i].value)], outcomes, i + 1);
    }
  }

  /** Filling in from the i-th outcome adds an "error" entry exactly when one of the
      commands from the i-th on failed, holding the first such failure's message. */
  lemma {:induction false} AnalysisResultsFromError(results: map<string, Entry>,
                                                    outcomes: seq<Result<seq<string>, SessionError>>, i: nat)
    requires |outcomes| <= |ANALYSIS_KEYS|
    requires "error" !in results
    ensures "error" in AnalysisResultsFrom(results, outcomes, i) <==>
      exists j :: i <= j < |outcomes| && outcomes[j].Failure?
    ensures forall j :: i <= j < |outcomes| && outcomes[j].Failure? && SucceededBetween(outcomes, i, j) ==>
      AnalysisResultsFrom(results, outcomes, i)["error"] == ErrorText(outcomes[j].error.message)
    decreases |ANALYSIS_KEYS| - i
  {
    if i < |outcomes| && outcomes[i].Success? {
      AnalysisResultsFromError(results[ANALYSIS_KEYS[i] := Lines(outcomes[i].value)], outcomes, i + 1);
    }
  }

  /** The results table holds a command's lines exactly when it and every command before
      it succeeded, holds nothing for the commands not reached, and holds an "error"
      entry exactly when some command failed, with the first failure's message. */
  lemma AnalysisResultsShape(outcomes: seq<Result<seq<string>, SessionError>>)
    requires |outcomes| <= |ANALYSIS_KEYS|
    ensures forall j :: 0 <= j < |outcomes| ==>
      (ANALYSIS_KEYS[j] in AnalysisResults(outcomes) <==> SucceededBetween(outcomes, 0, j + 1)) &&
      (ANALYSIS_KEYS[j] in AnalysisResults(outcomes) ==> AnalysisResults(outcomes)[ANALYSIS_KEYS[j]] == Lines(outcomes[j].value))
    ensures forall j :: |outcomes| <= j < |ANALYSIS_KEYS| ==> ANALYSIS_KEYS[j] !in AnalysisResults(outcomes)
    ensures "error" in AnalysisResults(outcomes) <==> exists j :: 0 <= j < |outcomes| && outcomes[j].Failure?
    ensures forall j :: 0 <= j < |outcomes| && outcomes[j].Failure? && SucceededBetween(outcomes, 0, j) ==>
      AnalysisResults(outcomes)["error"] == ErrorText(outcomes[j].error.message)
  {
    AnalysisResultsFromKeys(map[], outcomes, 0);
    AnalysisResultsFromError(map[], outcomes, 0);
  }

  /** Adding one more outcome after a run of successes stores its lines under its key,
      or, when it failed, its message under "error". */
  lemma {:induction false} AnalysisResultsExtend(results: map<string, Entry>,
                                                 outcomes: seq<Result<seq<string>, SessionError>>,
                                                 outcome: Result<seq<string>, SessionError>, i: nat)
    requires i <= |outcomes| < |ANALYSIS_KEYS| && SucceededBetween(outcomes, i, |outcomes|)
    ensures AnalysisResultsFrom(results, outcomes + [outcome], i) ==
      if outcome.Success? then AnalysisResultsFrom(results, outcomes, i)[ANALYSIS_KEYS[|outcomes|] := Lines(outcome.value)]
      else AnalysisResultsFrom(results, outcomes, i)["error" := ErrorText(outcome.error.message)]
    decreases |outcomes| - i
  {
    if i < |outcomes| {
      assert (outcomes + [outcome])[i] == outcomes[i];
      AnalysisResultsExtend(results[ANALYSIS_KEYS[i] := Lines(outcomes[i].value)], outcomes, outcome, i + 1);
    } else {
      assert (outcomes + [outcome])[i] == outcome;
    }
  }

  /** The analysis run so far: each outcome is what its command returned on the buffer
      the commands before it left, all but the last succeeded, the results table is the
      one they give, and the session has been sent exactly those commands. */
  ghost predicate AnalysisSoFar(session: CdbSession, replies: seq<Exchange>, buffer0: seq<string>, stdin0: seq<string>,
                                results: map<string, Entry>, outcomes: seq<Result<seq<string>, SessionError>>)
    reads session
  {
    && |outcomes| <= |ANALYSIS_COMMANDS|
    && results == AnalysisResults(outcomes)
    && (forall i :: 0 <= i < |outcomes| ==>
          outcomes[i] == OutcomeAt(session.process.Some?, buffer0, ANALYSIS_COMMANDS, session.timeout, replies, i))
    && (forall i :: 0 <= i < |outcomes| - 1 ==> outcomes[i].Success?)
    && session.Ran(ANALYSIS_COMMANDS, replies, buffer0, stdin0, |outcomes|)
  }

  /** The i-th command of the analysis run, once the ones before it succeeded: its
      lines are stored under its key, or its failure under "error". */
  method AnalysisCommand(session: CdbSession, replies: seq<Exchange>, i: nat,
                         ghost buffer0: seq<string>, ghost stdin0: seq<string>,
                         results: map<string, Entry>, ghost outcomes: seq<Result<seq<string>, SessionError>>)
    returns (failed: bool, results': map<string, Entry>, ghost outcomes': seq<Result<seq<string>, SessionError>>)
    requires session.Valid() && i == |outcomes| < |ANALYSIS_COMMANDS|
    requires AnalysisSoFar(session, replies, buffer0, stdin0, results, outcomes) && SucceededBetween(outcomes, 0, i)
    modifies session
    ensures session.Valid() && session.process == old(session.process)
    ensures AnalysisSoFar(session, replies, buffer0, stdin0, results', outcomes')
    ensures |outcomes'| == i + 1 && (failed <==> outcomes'[i].Failure?)
  {
    var r := session.SendInRun(ANALYSIS_COMMANDS[i], ANALYSIS_COMMANDS, replies, i, buffer0, stdin0);
    outcomes' := outcomes + [r];
    AnalysisResultsExtend(map[], outcomes, r, 0);
    if r.Failure? {
      return true, results["error" := ErrorText(r.error.message)], outcomes';
    }
    return false, results[ANALYSIS_KEYS[i] := Lines(r.value)], outcomes';
  }

  /** `execute_common_analysis_commands`: run the last event, the analysis, the modules
      and the threads commands in order, storing each output; the first failure is stored
      as "error" and stops the run. `outcomes` are what the commands returned, in order. */
  method ExecuteCommonAnalysis(session: CdbSession, replies: seq<Exchange>)
    returns (results: map<string, Entry>, ghost outcomes: seq<Result<seq<string>, SessionError>>)
    requires session.Valid()
    modifies session
    ensures session.Valid() && session.process == old(session.process)
    ensures results == AnalysisResults(outcomes)
    ensures 1 <= |outcomes| <= |ANALYSIS_COMMANDS|
    ensures forall i :: 0 <= i < |outcomes| ==>
      outcomes[i] == OutcomeAt(old(session.process).Some?, old(session.buffer), ANALYSIS_COMMANDS, session.timeout, replies, i)
    ensures forall i :: 0 <= i < |outcomes| - 1 ==> outcomes[i].Success?
    ensures |outcomes| < |ANALYSIS_COMMANDS| ==> outcomes[|outcomes| - 1].Failure?
    ensures session.Ran(ANALYSIS_COMMANDS, replies, old(session.buffer), old(session.stdin), |outcomes|)
    ensures old(session.process).None? ==> outcomes == [Failure(CdbError(NOT_RUNNING_MESSAGE))]
  {
    ghost var buffer0, stdin0 := session.buffer, session.stdin;
    assert stdin0 + [] == stdin0;
    var failed;
    failed, results, outcomes := AnalysisCommand(session, replies, 0, buffer0, stdin0, map[], []);
    if failed {
      return;
    }
    failed, results, outcomes := AnalysisCommand(session, replies, 1, buffer0, stdin0, results, outcomes);
    if failed {
      return;
    }
    failed, results, outcomes := AnalysisCommand(session, replies, 2, buffer0, stdin0, results, outcomes);
    if failed {
      return;
    }
    failed, results, outcomes := AnalysisCommand(session, replies, 3, buffer0, stdin0, results, outcomes);
  }

  /** `session.send_command(command)` for the i-th command of a run, on a session the
      table holds: the table keeps its invariant, since only that session changes and it
      keeps its process. */
  method SendOnHeld(reg: Registry, session: CdbSession, command: string, ghost commands: seq<string>,
                    replies: seq<Exchange>, i: nat, ghost buffer0: seq<string>, ghost stdin0: seq<string>)
    returns (r: Result<seq<string>, SessionError>)
    requires reg.Valid() && session in reg.Live()
    requires i < |commands| && commands[i] == command && session.Ran(commands, replies, buffer0, stdin0, i)
    modifies session
    ensures reg.Valid() && session in reg.Live()
    ensures r == OutcomeAt(true, buffer0, commands, session.timeout, replies, i)
    ensures r.Success? ==> Clean(r.value)
    ensures session.Ran(commands, replies, buffer0, stdin0, i + 1)
    ensures session.process == old(session.process)
  {
    r := session.SendInRun(command, commands, replies, i, buffer0, stdin0);
    forall k | k in reg.sessions && reg.sessions[k].Some?
      ensures reg.sessions[k].value.Valid() && reg.sessions[k].value.process.Some?
    {
    }
  }

  /** The sections of the `open_windbg_dump` reply, one per step, in order. */
  function Sections(steps: seq<Step>, outputs: seq<seq<string>>): (r: seq<string>)
    requires |outputs| == |steps|
    ensures |r| == |steps|
    ensures forall i :: 0 <= i < |steps| ==> r[i] == SectionText(steps[i].Title(), outputs[i])
  {
    seq(|steps|, i requires 0 <= i < |steps| => SectionText(steps[i].Title(), outputs[i]))
  }

  /** Appending a step and its output appends that step's section. */
  lemma SectionsAppend(steps: seq<Step>, outputs: seq<seq<string>>, step: Step, output: seq<string>)
    requires |outputs| == |steps|
    ensures Sections(steps + [step], outputs + [output]) ==
            Sections(steps, outputs) + [SectionText(step.Title(), output)]
  {
    var longer := Sections(steps + [step], outputs + [output]);
    var shorter := Sections(steps, outputs) + [SectionText(step.Title(), output)];
    assert |longer| == |shorter|;
    forall i | 0 <= i < |longer|
      ensures longer[i] == shorter[i]
    {
      if i < |steps| {
        assert (steps + [step])[i] == steps[i] && (outputs + [output])[i] == outputs[i];
      }
    }
  }

  /** The debugger commands of a plan, in order. */
  function Commands(plan: seq<Step>): seq<string>
  {
    seq(|plan|, i requires 0 <= i < |plan| => plan[i].Command())
  }

  /** The reply built so far: one section per step run, each from a clean output. */
  ghost predicate Collected(results: seq<string>, steps: seq<Step>, outputs: seq<seq<string>>)
  {
    |outputs| == |steps| && results == Sections(steps, outputs) &&
    forall i :: 0 <= i < |outputs| ==> Clean(outputs[i])
  }

  /** Each step run so far is a step of the plan whose command succeeded and returned the
      output its section shows, the plan's commands being sent one after another from
      `buffer0`. */
  ghost predicate Answered(plan: seq<Step>, buffer0: seq<string>, seconds: int, replies: seq<Exchange>,
                           steps: seq<Step>, outputs: seq<seq<string>>)
  {
    |outputs| == |steps| <= |plan| &&
    forall i :: 0 <= i < |steps| ==>
      OutcomeAt(true, buffer0, Commands(plan), seconds, replies, i) == Success(outputs[i])
  }

  /** One more successful step keeps the steps answered. */
  lemma AnsweredStep(plan: seq<Step>, buffer0: seq<string>, seconds: int, replies: seq<Exchange>,
                     steps: seq<Step>, outputs: seq<seq<string>>, output: seq<string>)
    requires Answered(plan, buffer0, seconds, replies, steps, outputs) && |steps| < |plan|
    requires OutcomeAt(true, buffer0, Commands(plan), seconds, replies, |steps|) == Success(output)
    ensures Answered(plan, buffer0, seconds, replies, steps + [plan[|steps|]], outputs + [output])
  {
    var steps', outputs' := steps + [plan[|steps|]], outputs + [output];
    forall i | 0 <= i < |steps'|
      ensures OutcomeAt(true, buffer0, Commands(plan), seconds, replies, i) == Success(outputs'[i])
    {
      if i < |steps| {
        assert outputs'[i] == outputs[i];
      }
    }
  }

  /** A run of the plan so far: the reply holds one section per step run, the steps run
      are a prefix of the plan and were answered, and the session has been sent their
      commands and, when the run stopped with `failure`, the failing step's command too. */
  ghost predicate PlanProgress(session: CdbSession, plan: seq<Step>, replies: seq<Exchange>,
                               buffer0: seq<string>, stdin0: seq<string>, failure: Option<SessionError>,
                               results: seq<string>, steps: seq<Step>, outputs: seq<seq<string>>)
    reads session
  {
    && Collected(results, steps, outputs) && steps <= plan
    && Answered(plan, buffer0, session.timeout, replies, steps, outputs)
    && (failure.Some? ==>
          |steps| < |plan| &&
          OutcomeAt(true, buffer0, Commands(plan), session.timeout, replies, |steps|) == Failure(failure.value))
    && session.Ran(Commands(plan), replies, buffer0, stdin0, if failure.Some? then |steps| + 1 else |steps|)
  }

  /** One section of the `open_windbg_dump` reply: the next step of the plan run on a
      session the table holds and, when its command succeeds, its output appended under
      the step's title. `replies[i]` is the debugger's side of the i-th command. */
  method AddSection(reg: Registry, session: CdbSession, step: Step, replies: seq<Exchange>, ghost plan: seq<Step>,
                    ghost buffer0: seq<string>, ghost stdin0: seq<string>,
                    results: seq<string>, ghost steps: seq<Step>, ghost outputs: seq<seq<string>>)
    returns (failure: Option<SessionError>, results': seq<string>,
             ghost steps': seq<Step>, ghost outputs': seq<seq<string>>)
    requires reg.Valid() && session in reg.Live()
    requires PlanProgress(session, plan, replies, buffer0, stdin0, None, results, steps, outputs)
    requires steps + [step] <= plan
    modifies session
    ensures reg.Valid() && session in reg.Live()
    ensures PlanProgress(session, plan, replies, buffer0, stdin0, failure, results', steps', outputs')
    ensures failure.None? ==> steps' == steps + [step]
    ensures failure.Some? ==> steps' == steps
    ensures session.process == old(session.process)
  {
    ghost var i := |steps|;
    assert plan[i] == (steps + [step])[i] == step;
    var sent := SendOnHeld(reg, session, step.Command(), Commands(plan), replies, |results|, buffer0, stdin0);
    if sent.Failure? {
      return Some(sent.error), results, steps, outputs;
    }
    AnsweredStep(plan, buffer0, session.timeout, replies, steps, outputs, sent.value);
    SectionsAppend(steps, outputs, step, sent.value);
    return None, results + [SectionText(step.Title(), sent.value)], steps + [step], outputs + [sent.value];
  }

  /** The plan grows one optional step at a time: each stage of `open_windbg_dump` is a
      prefix of the whole plan. */
  lemma PlanStages(includeStackTrace: bool, includeModules: bool, includeThreads: bool)
    ensures var plan := OpenDumpPlan(includeStackTrace, includeModules, includeThreads);
      var withStack := [CrashInfo, CrashAnalysis] + (if includeStackTrace then [StackTrace] else []);
      var withModules := withStack + (if includeModules then [LoadedModules] else []);
      && [CrashInfo] <= plan && [CrashInfo, CrashAnalysis] <= plan
      && (includeStackTrace ==> [CrashInfo, CrashAnalysis] + [StackTrace] <= plan)
      && (includeModules ==> withStack + [LoadedModules] <= plan)
      && (includeThreads ==> withModules + [Threads] <= plan)
      && withModules + (if includeThreads then [Threads] else []) == plan
  {
  }

  /** One optional section of `open_windbg_dump`: the step's section is added when its
      flag is set, and nothing is sent when it is not. */
  method AddOptionalSection(reg: Registry, session: CdbSession, wanted: bool, step: Step, replies: seq<Exchange>,
                            ghost plan: seq<Step>, ghost buffer0: seq<string>, ghost stdin0: seq<string>,
                            results: seq<string>, ghost steps: seq<Step>, ghost outputs: seq<seq<string>>)
    returns (failure: Option<SessionError>, results': seq<string>,
             ghost steps': seq<Step>, ghost outputs': seq<seq<string>>)
    requires reg.Valid() && session in reg.Live()
    requires PlanProgress(session, plan, replies, buffer0, stdin0, None, results, steps, outputs)
    requires steps + (if wanted then [step] else []) <= plan
    modifies session
    ensures reg.Valid() && session in reg.Live()
    ensures PlanProgress(session, plan, replies, buffer0, stdin0, failure, results', steps', outputs')
    ensures failure.None? ==> steps' == steps + (if wanted then [step] else [])
    ensures failure.Some? ==> wanted && steps' == steps
    ensures session.process == old(session.process)
  {
    if !wanted {
      assert steps + [] == steps;
      return None, results, steps, outputs;
    }
    failure, results', steps', outputs' :=
      AddSection(reg, session, step, replies, plan, buffer0, stdin0, results, steps, outputs);
  }

  /** The optional sections of `open_windbg_dump`, after the two it always runs: the stack
      trace, the modules and the threads, each only when its flag is set. */
  method AddOptionalSections(reg: Registry, session: CdbSession,
                             includeStackTrace: bool, includeModules: bool, includeThreads: bool,
                             replies: seq<Exchange>, ghost buffer0: seq<string>, ghost stdin0: seq<string>,
                             results: seq<string>, ghost steps: seq<Step>, ghost outputs: seq<seq<string>>)
    returns (failure: Option<SessionError>, results': seq<string>,
             ghost steps': seq<Step>, ghost outputs': seq<seq<string>>)
    requires reg.Valid() && session in reg.Live() && steps == [CrashInfo, CrashAnalysis]
    requires PlanProgress(session, OpenDumpPlan(includeStackTrace, includeModules, includeThreads), replies,
                          buffer0, stdin0, None, results, steps, outputs)
    modifies session
    ensures reg.Valid() && session in reg.Live()
    ensures var plan := OpenDumpPlan(includeStackTrace, includeModules, includeThreads);
      && PlanProgress(session, plan, replies, buffer0, stdin0, failure, results', steps', outputs')
      && (failure.None? <==> steps' == plan)
    ensures session.process == old(session.process)
  {
    ghost var plan := OpenDumpPlan(includeStackTrace, includeModules, includeThreads);
    PlanStages(includeStackTrace, includeModules, includeThreads);
    failure, results', steps', outputs' :=
      AddOptionalSection(reg, session, includeStackTrace, StackTrace, replies, plan, buffer0, stdin0,
                         results, steps, outputs);
    if failure.Some? {
      return;
    }
    failure, results', steps', outputs' :=
      AddOptionalSection(reg, session, includeModules, LoadedModules, replies, plan, buffer0, stdin0,
                         results', steps', outputs');
    if failure.Some? {
      return;
    }
    failure, results', steps', outputs' :=
      AddOptionalSection(reg, session, includeThreads, Threads, replies, plan, buffer0, stdin0,
                         results', steps', outputs');
  }

  /** The two sections `open_windbg_dump` always starts with, the crash information and
      the crash analysis, run from the session's state at the call. */
  method AddFixedSections(reg: Registry, session: CdbSession, replies: seq<Exchange>, ghost plan: seq<Step>)
    returns (failure: Option<SessionError>, results: seq<string>,
             ghost steps: seq<Step>, ghost outputs: seq<seq<string>>)
    requires reg.Valid() && session in reg.Live() && [CrashInfo, CrashAnalysis] <= plan
    modifies session
    ensures reg.Valid() && session in reg.Live()
    ensures PlanProgress(session, plan, replies, old(session.buffer), old(session.stdin), failure, results, steps, outputs)
    ensures failure.None? ==> steps == [CrashInfo, CrashAnalysis]
    ensures session.process == old(session.process)
  {
    ghost var buffer0, stdin0 := session.buffer, session.stdin;
    assert [] + [CrashInfo] <= plan;
    assert stdin0 + SentWrites(true, Commands(plan), replies, 0) == stdin0;
    failure, results, steps, outputs :=
      AddSection(reg, session, CrashInfo, replies, plan, buffer0, stdin0, [], [], []);
    if failure.Some? {
      return;
    }
    failure, results, steps, outputs :=
      AddSection(reg, session, CrashAnalysis, replies, plan, buffer0, stdin0, results, steps, outputs);
  }

  /** The commands of `open_windbg_dump` on a held session: the plan's steps in order, each
      adding its section; the first failing command ends the run with its error, after the
      steps before it. `replies[i]` is the debugger's side of the i-th command run. */
  method RunOpenDumpPlan(reg: Registry, session: CdbSession,
                         includeStackTrace: bool, includeModules: bool, includeThreads: bool,
                         replies: seq<Exchange>)
    returns (failure: Option<SessionError>, results: seq<string>,
             ghost steps: seq<Step>, ghost outputs: seq<seq<string>>)
    requires reg.Valid() && session in reg.Live()
    modifies session
    ensures reg.Valid() && session in reg.Live()
    ensures var plan := OpenDumpPlan(includeStackTrace, includeModules, includeThreads);
      && PlanProgress(session, plan, replies, old(session.buffer), old(session.stdin), failure, results, steps, outputs)
      && (failure.None? <==> steps == plan)
    ensures session.process == old(session.process)
  {
    ghost var plan := OpenDumpPlan(includeStackTrace, includeModules, includeThreads);
    ghost var buffer0, stdin0 := session.buffer, session.stdin;
    PlanStages(includeStackTrace, includeModules, includeThreads);
    failure, results, steps, outputs := AddFixedSections(reg, session, replies, plan);
    if failure.Some? {
      return;
    }
    failure, results, steps, outputs :=
      AddOptionalSections(reg, session, includeStackTrace, includeModules, includeThreads, replies,
                          buffer0, stdin0, results, steps, outputs);
  }

  /** The reply of `open_windbg_dump` once the table holds a session under `key`: the
      plan's sections joined, or the exception of the first failing command. Only that
      session changes, and it keeps its process. */
  method OpenDumpReply(reg: Registry, key: Path,
                       includeStackTrace: bool, includeModules: bool, includeThreads: bool,
                       replies: seq<Exchange>)
    returns (r: Result<string, ToolError>, ghost steps: seq<Step>, ghost outputs: seq<seq<string>>,
             ghost stdin0: seq<string>, ghost buffer0: seq<string>)
    requires reg.Valid() && key in reg.sessions && reg.sessions[key].Some?
    modifies reg.sessions[key].value
    ensures reg.Valid()
    ensures var session := reg.sessions[key].value;
      && session.process == old(session.process)
      && stdin0 == old(session.stdin) && buffer0 == old(session.buffer)
    ensures forall k :: k in reg.sessions && k != key && reg.sessions[k].Some? ==> unchanged(reg.sessions[k].value)
    ensures r.Failure? ==> r.error.Raised?
    ensures |outputs| == |steps|
    ensures var plan := OpenDumpPlan(includeStackTrace, includeModules, includeThreads);
      && PlanProgress(reg.sessions[key].value, plan, replies, buffer0, stdin0,
                      if r.Success? then None else Some(r.error.cause), Sections(steps, outputs), steps, outputs)
      && (r.Success? <==> steps == plan)
      && (r.Success? ==> r.value == Concat(Sections(steps, outputs)))
  {
    var session := reg.sessions[key].value;
    stdin0, buffer0 := session.stdin, session.buffer;
    var failure, results;
    failure, results, steps, outputs := RunOpenDumpPlan(reg, session, includeStackTrace, includeModules,
                                                         includeThreads, replies);
    if failure.Some? {
      return Failure(Raised(failure.value)), steps, outputs, stdin0, buffer0;
    }
    return Success(Concat(results)), steps, outputs, stdin0, buffer0;
  }

  /** The `open_windbg_dump` branch of `call_tool`: get or create the dump's session, then
      run the plan's commands on it; a failing command ends the call with its exception.
      `stdin0` and `buffer0` are the session's input log and buffer when its commands start. */
  method OpenWindbgDump(reg: Registry, dumpPath: string,
                        includeStackTrace: bool, includeModules: bool, includeThreads: bool,
                        cfg: Config, abspath: string -> string, host: Host, launch: LaunchOutcome,
                        startup: Exchange, replies: seq<Exchange>)
    returns (r: Result<string, ToolError>, ghost steps: seq<Step>, ghost outputs: seq<seq<string>>,
             ghost stdin0: seq<string>, ghost buffer0: seq<string>)
    requires reg.Valid()
    modifies reg, reg.Live()
    ensures reg.Valid()
    ensures |outputs| == |steps| && steps <= OpenDumpPlan(includeStackTrace, includeModules, includeThreads)
    ensures var key := abspath(dumpPath);
      var held := key in old(reg.sessions) && old(reg.sessions)[key].Some?;
      && (held ==> reg.sessions == old(reg.sessions) &&
                   stdin0 == old(reg.sessions[key].value.stdin) && buffer0 == old(reg.sessions[key].value.buffer) &&
                   reg.sessions[key].value.process == old(reg.sessions[key].value.process))
      && (r.Failure? && r.error.Reported? <==>
            !held && !(Launchable(key, cfg.cdbPath, host, launch) && StartupAnswered(startup)))
      && (r.Failure? && r.error.Reported? ==>
            reg.sessions == old(reg.sessions) && steps == [] &&
            r.error.error.code == INTERNAL_ERROR && CREATE_FAILED_PREFIX <= r.error.error.message)
      && (!held && !(r.Failure? && r.error.Reported?) ==>
            key in reg.sessions && reg.sessions[key].Some? && fresh(reg.sessions[key].value) &&
            reg.sessions == old(reg.sessions)[key := reg.sessions[key]] &&
            stdin0 == [COMMAND_MARKER + "\n"] && buffer0 == StartupBuffer(startup) &&
            Configured(reg.sessions[key].value, key, cfg, host, launch))
    ensures var key := abspath(dumpPath);
      var plan := OpenDumpPlan(includeStackTrace, includeModules, includeThreads);
      !(r.Failure? && r.error.Reported?) ==>
        && key in reg.sessions && reg.sessions[key].Some?
        && PlanProgress(reg.sessions[key].value, plan, replies, buffer0, stdin0,
                        if r.Success? then None else Some(r.error.cause), Sections(steps, outputs), steps, outputs)
        && (r.Success? <==> steps == plan)
        && (r.Success? ==> r.value == Concat(Sections(steps, outputs)))
    ensures forall k :: k in old(reg.sessions) && k != abspath(dumpPath) && old(reg.sessions)[k].Some? ==>
      unchanged(old(reg.sessions)[k].value)
  {
    var got := reg.GetOrCreateSession(dumpPath, cfg, abspath, host, launch, startup);
    if got.Failure? {
      return Failure(Reported(got.error)), [], [], [], [];
    }
    r, steps, outputs, stdin0, buffer0 :=
      OpenDumpReply(reg, abspath(dumpPath), includeStackTrace, includeModules, includeThreads, replies);
  }

  /** The `run_windbg_cmd` branch of `call_tool`: get or create the dump's session, run
      the command and quote its output. `stdin0` and `buffer0` are the session's input log
      and buffer when the command is sent. */
  method RunWindbgCmd(reg: Registry, dumpPath: string, command: string,
                      cfg: Config, abspath: string -> string, host: Host, launch: LaunchOutcome,
                      startup: Exchange, reply: Exchange)
    returns (r: Result<string, ToolError>, ghost stdin0: seq<string>, ghost buffer0: seq<string>)
    requires reg.Valid()
    modifies reg, reg.Live()
    ensures reg.Valid()
    ensures var key := abspath(dumpPath);
      var held := key in old(reg.sessions) && old(reg.sessions)[key].Some?;
      && (held ==> reg.sessions == old(reg.sessions) &&
                   stdin0 == old(reg.sessions[key].value.stdin) && buffer0 == old(reg.sessions[key].value.buffer) &&
                   reg.sessions[key].value.process == old(reg.sessions[key].value.process))
      && (r.Failure? && r.error.Reported? <==>
            !held && !(Launchable(key, cfg.cdbPath, host, launch) && StartupAnswered(startup)))
      && (r.Failure? && r.error.Reported? ==>
            reg.sessions == old(reg.sessions) &&
            r.error.error.code == INTERNAL_ERROR && CREATE_FAILED_PREFIX <= r.error.error.message)
      && (!held && !(r.Failure? && r.error.Reported?) ==>
            key in reg.sessions && reg.sessions[key].Some? && fresh(reg.sessions[key].value) &&
            reg.sessions == old(reg.sessions)[key := reg.sessions[key]] &&
            stdin0 == [COMMAND_MARKER + "\n"] && buffer0 == StartupBuffer(startup) &&
            Configured(reg.sessions[key].value, key, cfg, host, launch))
    ensures var key := abspath(dumpPath);
      !(r.Failure? && r.error.Reported?) ==>
        && key in reg.sessions && reg.sessions[key].Some?
        && var session := reg.sessions[key].value;
           var sent := SendOutcome(true, buffer0, command, session.timeout, reply);
           && session.stdin == stdin0 + WriteFor(true, command, reply)
           && session.buffer == AfterSend(true, buffer0, reply)
           && (r.Success? <==> sent.Success?)
           && (r.Success? ==> r.value == RunCommandReply(command, sent.value) && Clean(sent.value))
           && (r.Failure? ==> r.error == Raised(sent.error))

    ensures forall k :: k in old(reg.sessions) && k != abspath(dumpPath) && old(reg.sessions)[k].Some? ==>
      unchanged(old(reg.sessions)[k].value)
  {
    var got := reg.GetOrCreateSession(dumpPath, cfg, abspath, host, launch, startup);
    if got.Failure? {
      return Failure(Reported(got.error)), [], [];
    }
    stdin0, buffer0 := got.value.stdin, got.value.buffer;
    assert stdin0 + [] == stdin0;
    var sent := SendOnHeld(reg, got.value, command, [command], [reply], 0, buffer0, stdin0);
    if sent.Failure? {
      return Failure(Raised(sent.error)), stdin0, buffer0;
    }
    return Success(RunCommandReply(command, sent.value)), stdin0, buffer0;
  }

  /** The `close_windbg_dump` branch of `call_tool`: unload the dump's session and say
      whether there was one. */
  method CloseWindbgDump(reg: Registry, dumpPath: string, abspath: string -> string, alive: bool)
    returns (text: string)
    requires reg.Valid()
    modifies reg, reg.Live()
    ensures reg.Valid()
    ensures var key := abspath(dumpPath);
      var held := key in old(reg.sessions) && old(reg.sessions)[key].Some?;
      && text == CloseDumpReply(dumpPath, held)
      && reg.sessions == (if held then old(reg.sessions) - {key} else old(reg.sessions))
      && (held ==>
            old(reg.sessions)[key].value.process.None? &&
            old(reg.sessions)[key].value.stdin == old(reg.sessions[key].value.stdin) + (if alive then ["q\n"] else []))

    ensures forall k :: k in old(reg.sessions) && k != abspath(dumpPath) && old(reg.sessions)[k].Some? ==>
      unchanged(old(reg.sessions)[k].value)
  {
    var unloaded := reg.UnloadSession(dumpPath, abspath, alive);
    forall k | k in old(reg.sessions) && k != abspath(dumpPath) && old(reg.sessions)[k].Some?
      ensures unchanged(old(reg.sessions)[k].value)
    {
      assert k in reg.sessions && reg.sessions[k] == old(reg.sessions)[k];
      assert old(reg.sessions)[k].value in reg.Live();
    }
    text := CloseDumpReply(dumpPath, unloaded);
  }
}

=== FILE: wrappers.dfy ===
/** Failure-compatible wrappers used throughout the model. */
module Wrappers {

  /** A value that may be absent (Python's `Optional`, `None` when absent). */
  datatype Option<+T> = None | Some(value: T)

  /** The outcome of an operation that may raise instead of returning. */
  datatype Result<+T, +E> = Success(value: T) | Failure(error: E)
}
